=== FILE: README.md ===
# A Dafny model of the key pool, the validators and the selection logic of the study-platform back end

The back end of this study platform does several things; this project models five of them.

- **The API-key pool manager.** It keeps an ordered, persisted pool of credentials for a rate-limited text-generation service. One key is "current". When a quota error comes back, the current key takes a strike, and after three strikes it is quarantined for 24 hours. The manager then scans the pool circularly for the next available key, reactivating any key whose quarantine has expired. A bounded retry loop sits around each generation call.
- **The administrative script.** It adds one key, removes keys by name, resets a key's errors, and runs the first-time setup session.
- **The registration validators.** They check e-mail, password and full name.
- **The dashboard panel.** It counts quizzes by plan and theme.
- **The free-tier quiz and flashcard routes.** They pick questions from a bank by category.

The model is functional:

- Entries, the persisted document and the manager are immutable datatypes.
- Every operation is a pure function or a short method.
- Time is an integer number of seconds, passed as `now`.
- The JSON document on disk appears as the manager's `saved` field: the store as last written. Contracts can therefore say when an operation saves and when it does not.
- The key the generation client is configured with is the `configured` field.
- The text-generation service is an abstract function from the configured key and the attempt number to a reply.
- `random.shuffle` is a method whose only promise is that it permutes its argument.

Modules, one per file:

- `Wrappers`: `Option` and `Result`.
- `Text`: characters and strings, covering case mapping, `strip`, substring search, `split`/`join` and decimal digits.
- `KeyManager`: the pool and the manager's operations.
- `RotationProperties`: what one rotation or a run of rotations does.
- `Retry`: the retry loop.
- `SetupKeys`: the administrative commands.
- `AuthValidators`: the three validators.
- `AdminStats`: the panel.
- `Freemium`: the routes.

Three behaviours of the code deserve mention, because a reader might expect otherwise:

- **A pool of one key never takes a strike.** `rotate_key` returns before counting the error.
- **A scan that finds no available key changes the pool in memory but does not save it.** The strike is lost when the process ends unless a later save writes it.
- **Three quota errors in a row on a fresh pool of two keys do not quarantine the first key.** The first rotation already makes the second key current, so the errors alternate between the two keys (`RotationProperties.TwoFreshKeysThreeFailures`).

## Model

| member | source | states |
|---|---|---|
| `KeyManager.Init` | api_key_manager.py:11-37 | The manager loads the document, or creates and saves an empty one when the file is absent. The index starts at 0. The client is configured with the first key exactly when the pool is non-empty. |
| `KeyManager.AddKey` | api_key_manager.py:44-65 | The pool grows by exactly one fresh entry at the end and keeps every earlier entry. A missing name defaults to `key_` followed by the old length plus one. The document is saved, and the index and client stay put. |
| `KeyManager.GetCurrentKey` | api_key_manager.py:68-73 | An empty pool is an error. Otherwise the result is the entry at the current index. |
| `KeyManager.Availability` | api_key_manager.py:125-139 | An entry is available iff it is active or its quarantine ended strictly before `now`. An expired entry is reactivated with zero errors and no block, keeping its last failure time. Every other entry is left as it was. |
| `KeyManager.Strike` | api_key_manager.py:92-100 | One more error, stamped `now`. Reaching three errors deactivates the key until `now + 86400`. Below three, `active` and `blocked_until` are unchanged. |
| `KeyManager.Struck` | api_key_manager.py:92-100 | Only the current entry takes the strike. Every other entry is unchanged. |
| `KeyManager.CandidateIndex` | api_key_manager.py:108 | The candidate of every step lies inside the pool. |
| `KeyManager.CandidateIsStartOnlyAtLap` | api_key_manager.py:104-108 | The scan's candidate `(orig + k) mod n` equals the starting index iff `k = n`, the last step of the lap. |
| `KeyManager.FirstAvailable` | api_key_manager.py:107-120 | The scan stops at the first step whose candidate is available. If it finds none, no step in the lap has an available candidate. |
| `KeyManager.Rotate` | api_key_manager.py:81-123 | With fewer than two keys, nothing changes and nothing rotates. Otherwise the scan succeeds iff some candidate of the struck pool is available. A failed scan keeps only the strike, keeps the index and saves nothing. A successful scan makes an active key current, sets `last_rotation = now`, saves the document and reconfigures the client. |
| `KeyManager.RotateSelectsFirstAvailable` | api_key_manager.py:104-120 | A successful rotation selects the candidate of the first available step, reactivated if its quarantine expired. Every other entry stays as the strike left it. |
| `KeyManager.AnyMarkerIn` | api_key_manager.py:154-163 | The result is true iff one of the markers from the given position on occurs in the text. |
| `KeyManager.ShouldRotate` | api_key_manager.py:151-163 | The result is true iff the lower-cased error text contains one of the six quota markers. |
| `KeyManager.HandleApiError` | api_key_manager.py:141-170 | A quota error gives exactly the result of `rotate_key`. Any other error leaves the manager untouched and reports no rotation. |
| `KeyManager.FirstNamed` | api_key_manager.py:198-199 | Finds the position of the first entry with that name, or reports that none has it. |
| `KeyManager.ResetKeyErrors` | api_key_manager.py:196-209 | The result is true iff some entry has the name. Only the first such entry is cleared: active, no errors, no failure time, no block. Later duplicates and other entries are unchanged, and the document is saved. When the name is missing, nothing changes. |
| `RotationProperties.ThirdStrikeQuarantines` | api_key_manager.py:92-120 | The third failure deactivates the current key until `now + 86400`, and a successful rotation never lands back on it. |
| `RotationProperties.SecondStrikeKeepsActive` | api_key_manager.py:92-100 | The second failure leaves an active key active, with two errors and an unchanged block. |
| `RotationProperties.ExpiredNextIsReactivated` | api_key_manager.py:107-139 | An expired key next in circular order is selected and reactivated, and keeps its last failure time. |
| `RotationProperties.AtMostOneReactivation` | api_key_manager.py:107-139 | A key that was inactive and is active after a rotation was expired, and it is the key the rotation selected. So at most one key is reactivated per rotation. |
| `RotationProperties.FailedRotationIsNotSaved` | api_key_manager.py:92-123 | After a failed scan, the document on disk is what it was before, memory and disk disagree, and the index has not moved. |
| `RotationProperties.LapBackToCurrent` | api_key_manager.py:104-120 | When every other key is unavailable and the current key survives its strike, the scan comes round on its last step and selects the same key again. |
| `RotationProperties.CycleStep` | api_key_manager.py:104-118 | On a pool of active keys with at most one error each, one more rotation moves the current key from `t-1` to `t` and adds one error to the key it leaves. |
| `RotationProperties.ActivePoolCycles` | api_key_manager.py:104-118 | On a pool of active keys with at most one error each, the `t`-th successive rotation makes key `t` current. Keys before `t` each have one more error and are still active, and later keys are untouched. |
| `RotationProperties.ActivePoolKeepsRotating` | api_key_manager.py:104-118 | Every rotation of that cycle before the last key succeeds. |
| `RotationProperties.StepToNext` | api_key_manager.py:92-118 | When the next key in circular order is active, a rotation selects it, whatever the strike does to the current key. Only the old current key changes, by one more error. It stays active when it was active with at most one error before. |
| `RotationProperties.TwoFreshKeysThreeFailures` | api_key_manager.py:81-123 | Two fresh keys and three failures in a row: all three rotations succeed and the failures alternate. The first key ends with two errors, the second with one, both are active, and the second is current. |
| `Retry.HandleFailure` | api_key_manager.py:239-241 | The retry loop hands the error to `handle_api_error` and gets exactly its result. A rotation happens only on a quota error and leaves a configured client. Without a rotation, the client keeps its key. |
| `Retry.AppendReplay` | api_key_manager.py:229-245 | One more attempt, and the manager it leaves behind, extend the record of managers the attempts ran under. |
| `Retry.RecordFailure` | api_key_manager.py:234-245 | A failed attempt is recorded as rotated iff `handle_api_error` rotated. The manager after it is the one `handle_api_error` returned, and the record of managers grows by that one. |
| `Retry.AppendAttempt` | api_key_manager.py:229-250 | Appending one attempt that follows the loop's rules keeps the trace well formed. |
| `Retry.GenerateWithRetry` | api_key_manager.py:216-252 | At most `max_retries` attempts. The managers the attempts ran under are returned, from the manager on entry to the one on exit. Each attempt is made with the key its manager has configured. Each failure goes through `handle_api_error`, whose verdict is the one recorded and whose manager is the next one. Only the last attempt can succeed, and the loop stops early only on a success. The text is returned iff an attempt succeeded. The error is re-raised only when the last attempt failed without rotation. `None` is returned only when `max_retries <= 0` or the last failure rotated. |
| `SetupKeys.WithoutName` | setup_keys.py:121 | The list comprehension: no survivor has the name, and the list does not grow. |
| `SetupKeys.WithoutNameMultiset` | setup_keys.py:120-121 | Every copy of an entry with the name is dropped, and every copy of the others is kept. |
| `SetupKeys.WithoutNameMembers` | setup_keys.py:121 | The survivors are exactly the entries with another name. |
| `SetupKeys.WithoutNameShrinks` | setup_keys.py:120-123 | The length is unchanged iff no entry has the name. |
| `SetupKeys.WithoutNameAppend` | setup_keys.py:121 | Filtering a concatenation filters each part and keeps their order. |
| `SetupKeys.RemoveKey` | setup_keys.py:106-128 | A blank name aborts with the document untouched. Otherwise every entry with the name goes. The result is saved and reported as removed iff the pool got shorter; otherwise it is "not found" and nothing changes. |
| `SetupKeys.AddSingleKey` | setup_keys.py:82-103 | A blank name or a blank key aborts with the document untouched. Otherwise exactly one fresh entry, with the stripped name and key, is appended, and the time of the last rotation is kept. |
| `SetupKeys.ResetKey` | setup_keys.py:131-145 | A blank name aborts. Otherwise the first entry with the stripped name is cleared iff one exists, and every other entry and the time of the last rotation are unchanged. When no entry has the name, the report is "not found" and nothing changes. |
| `SetupKeys.NameAnswer` | setup_keys.py:27-33 | A blank name defaults to `chave_` followed by the round number. The default is never the quit word, so the name quits iff the typed line does. |
| `SetupKeys.QuitWordIsLowerSair` | setup_keys.py:32-39 | The quit test, letter by letter, holds iff the lower-cased text is `sair`. |
| `SetupKeys.ContinueAnswerIsLower` | setup_keys.py:51-52 | The continue test, letter by letter, holds iff the lower-cased answer is one of `s`, `sim`, `y`, `yes`. |
| `SetupKeys.ReadRound` | setup_keys.py:22-53 | A round never consumes nothing, and the name and key it adds are accepted: not blank, no white space at either end, not the quit word. |
| `SetupKeys.RoundDecides` | setup_keys.py:22-53 | One round. `sair` typed as the name or the key ends the session. A blank key repeats the round without adding. A round adds iff the name and the key are not the quit word and the key is not blank. It adds the stripped key under the answered name. After an addition, the session goes on iff the next answer is `s`, `sim`, `y` or `yes`. |
| `SetupKeys.AddExtendsSession` | setup_keys.py:46-48 | Each addition extends the pool by one accepted entry at its end. |
| `SetupKeys.PlanIsAccepted` | setup_keys.py:22-53 | Every entry the rounds of a session add is fresh, with an accepted name and key. |
| `SetupKeys.PlanStep` | setup_keys.py:22-57 | One round keeps the loop on course for what the rounds of the whole input call for. A stop ends there, a skipped round changes nothing, and an addition appends the next planned entry. |
| `SetupKeys.EndedSessionExtends` | setup_keys.py:22-57 | A session that ended as planned, with the index and client untouched, grew the pool only by accepted entries at its end. |
| `SetupKeys.PlayRound` | setup_keys.py:22-57 | One pass of the loop keeps the index, the client, the time of the last rotation and the saves as the loop promises. It either ends the session as planned or consumes input and stays on course. |
| `SetupKeys.SetupLoop` | setup_keys.py:22-57 | The keys added are exactly those the successive rounds of the input call for, in order, after the earlier entries. `key_count` is their number, and the loop ends as the rounds say: quit, declined or input exhausted. The current key, the client and the time of the last rotation are left alone. |
| `SetupKeys.SetupSession` | setup_keys.py:7-57 | The session starts from the freshly loaded document with a count of zero and adds the keys its input calls for. The document is saved after every addition, and the time of the last rotation is kept. |
| `AuthValidators.EmailSplitIsUnique` | auth_routes.py:23-25 | A match of the e-mail pattern can only split at the first `@` and at the last dot. |
| `AuthValidators.MatchesEmail` | auth_routes.py:23-25 | The result is true iff the pattern `[a-zA-Z0-9._%+-]+@[a-zA-Z0-9.-]+\.[a-zA-Z]{2,}` matches the whole string. |
| `AuthValidators.ValidateEmail` | auth_routes.py:12-31 | Missing or blank gives "required". Otherwise a stripped, lower-cased address that does not match is malformed. A match longer than 100 characters is too long, and every other match is accepted. |
| `AuthValidators.EmailFromParts` | auth_routes.py:12-31 | Any address made of an allowed local part, domain and letters-only top-level domain, of at most 100 characters, is accepted. |
| `AuthValidators.PartsAreAddress` | auth_routes.py:23 | Such an address splits at the `@` after the local part and at the dot before the top-level domain. |
| `AuthValidators.KeepChecks` | auth_routes.py:56-89 | The collected errors are exactly the checks that fail, and the list is empty iff none fails. |
| `AuthValidators.KeepChecksAbove` | auth_routes.py:56-89 | Filtering keeps a lower bound on the order of the checks. |
| `AuthValidators.RankIncreasingCons` | auth_routes.py:56-89 | A check earlier than all others in an ordered list can be put in front. |
| `AuthValidators.KeepChecksOrdered` | auth_routes.py:56-89 | The errors come in the order the checks are made. |
| `AuthValidators.PasswordChecksRanked` | auth_routes.py:56-89 | The eight checks are listed in the order of the code. |
| `AuthValidators.PasswordChecksCoverAll` | auth_routes.py:56-89 | Every error but "required" has a check. |
| `AuthValidators.PassingAllChecks` | auth_routes.py:56-91 | Failing no check means meeting every requirement: 8 to 128 characters, an upper-case letter, a lower-case letter, a digit, a special character, not a common password, and no triple run. |
| `AuthValidators.ValidatePassword` | auth_routes.py:46-91 | Missing or empty gives exactly `["Senha é obrigatória"]`. Otherwise the errors are exactly the failed checks, each once, in order. The password is valid iff the list is empty, iff it meets every requirement. |
| `AuthValidators.CapitalizeAllAppend` | auth_routes.py:121 | Capitalising a list capitalises each part of it, in order. |
| `AuthValidators.CapitalizeAllIdempotent` | auth_routes.py:121 | Capitalising a list of words twice is capitalising it once. |
| `AuthValidators.CapitalizedWords` | auth_routes.py:121 | Capitalising keeps words non-empty and free of spaces. |
| `AuthValidators.ValidateName` | auth_routes.py:94-123 | The checks run in order on the stripped name: not blank, at least 3 characters, at most 100, at least two words, only letters or spaces. Each verdict holds iff the earlier checks pass and its own fails. An accepted name is the capitalised words of the stripped name joined by single spaces. It splits back into exactly those words. |
| `AdminStats.ThemeOf` | admin_routes.py:203 | A null or empty theme becomes `Desconhecido`. Any other theme is kept. |
| `AdminStats.Categorize` | admin_routes.py:206-215 | `Filosofia` iff the upper-cased theme contains `FILOSOFIA`. Otherwise `Sociologia` iff it contains `SOCIOLOGIA`. Otherwise `Diversos`. |
| `AdminStats.CategorizeIgnoresCase` | admin_routes.py:206-215 | The letter case of the theme does not change its bucket. |
| `AdminStats.NoSubjectLetters` | admin_routes.py:206-215 | A theme with no `F` and no `L` once upper-cased is miscellaneous. |
| `AdminStats.MissingThemeIsDiversos` | admin_routes.py:203-215 | A row without a theme lands in `Diversos`. |
| `AdminStats.PlanOf` | admin_routes.py:217 | Only the plans `freemium` and `premium` are counted. |
| `AdminStats.Counts.Inc` | admin_routes.py:218 | One counter goes up by one and the other two stay the same, so the plan's total goes up by one. |
| `AdminStats.Table.Bump` | admin_routes.py:218 | The cell `(plan, bucket)` goes up by one, every other cell stays the same, and the table's total goes up by one. |
| `AdminStats.CellsAddUpToKnownRows` | admin_routes.py:197-218 | The six cells add up to the number of rows whose plan is `freemium` or `premium`. |
| `AdminStats.Tally` | admin_routes.py:197-218 | Each cell counts exactly the rows of its plan and bucket, and the total is the number of counted rows. |
| `AdminStats.ChartOf` | admin_routes.py:226-231 | The labels are `Freemium`, `Premium`. Each series has one entry per label, holding the count of that plan. |
| `AdminStats.PlanThemeChart` | admin_routes.py:197-231 | The labels are `Freemium`, `Premium`, and each series has two entries. Entry `i` counts the rows of plan `i` in that bucket. |
| `Freemium.ChosenCategory` | freemium_routes.py:24 | An absent `category` means `ambos`. A present one, even null, is taken as it is. |
| `Freemium.Filter` | freemium_routes.py:34-35 | The comprehension keeps only items of the category and never grows. |
| `Freemium.FilterMultiset` | freemium_routes.py:34-35 | Every copy of each item of the category is kept, and nothing else. |
| `Freemium.FilterAppend` | freemium_routes.py:38-39 | Filtering a concatenation filters each part. |
| `Freemium.FilterOfUniform` | freemium_routes.py:38-39 | A list of one category passes its own filter whole, and no other filter. |
| `Freemium.DisjointFilters` | freemium_routes.py:34-35 | Different categories take disjoint parts of the bank. |
| `Freemium.FilterOfPermutation` | freemium_routes.py:43 | Shuffling does not change how many items of a category there are. |
| `Freemium.Shuffle` | freemium_routes.py:36-43 | The result is a permutation of the argument. |
| `Freemium.SelectBoth` | freemium_routes.py:33-39 | With `ambos`: only the two subjects, exactly `min(cap, available)` of each (caps 5 and 4), all taken from the bank, and at most the route's total. |
| `Freemium.SelectOne` | freemium_routes.py:40-44 | With any other category: only items of that category, exactly `min(total, available)` of them (totals 10 and 8), all taken from the bank. |
| `Freemium.Select` | freemium_routes.py:32-44 | The selection for the chosen category is a sub-multiset of the bank, within the route's total. |
| `Freemium.Serve` | freemium_routes.py:9-80 | A missing id gets 400 and is checked before the plan. Any plan but `freemium` gets 403, checked before the bank. An empty bank gets 500 with the route's message. Otherwise the route serves a selection as above. |
| `Text.LowerChar` | api_key_manager.py:151 | An ASCII capital becomes the small letter at the same place in the alphabet. Lower-casing leaves no ASCII capital. It keeps digits, white space and the space character, and changes nothing that is not a capital. |
| `Text.UpperChar` | admin_routes.py:206 | An ASCII small letter becomes the capital at the same place in the alphabet. Exactly the ASCII letters become ASCII capitals, and white space is kept. |
| `Text.CaseRoundTrip` | admin_routes.py:206 | Upper-casing a lower-cased capital gives it back, and lower-casing an upper-cased small letter gives it back, in ASCII and Latin-1 (`ÿ` aside). |
| `Text.LowerIdempotent` | auth_routes.py:20 | `str.lower` applied twice is applied once. |
| `Text.UpperOfLower` | admin_routes.py:206 | `str.upper` after `str.lower` is `str.upper`. |
| `Text.CapitalizeIdempotent` | auth_routes.py:121 | `str.capitalize` applied twice is applied once. |
| `Text.SkipSpaces` | auth_routes.py:102 | Finds the first character from a position on that is not white space. Everything skipped is white space. |
| `Text.SkipSpacesBack` | auth_routes.py:102 | Finds the end of a range once its trailing white space is cut off. Everything cut is white space. |
| `Text.Strip` | auth_routes.py:102 | `str.strip` never lengthens. The result is empty iff the string is all white space. Otherwise it starts and ends with something else. |
| `Text.StripCutsSpaces` | auth_routes.py:102 | The result of `strip` is a slice of the string, and everything cut off on either side is white space. |
| `Text.StripOfTrimmed` | setup_keys.py:28 | A string with no white space at either end is its own strip. |
| `Text.StripIdempotent` | setup_keys.py:36 | Stripping twice is stripping once. |
| `Text.IsSubstring` | admin_routes.py:212 | The left-to-right search answers true iff the pattern occurs in the string. |
| `Text.ContainsCharOf` | admin_routes.py:212-214 | A pattern occurs only in a string that holds each of its characters. |
| `Text.IndexOf` | auth_routes.py:23 | Finds the first occurrence of a character, or reports that there is none. |
| `Text.LastIndexOf` | auth_routes.py:23 | Finds the last occurrence of a character, or reports that there is none. |
| `Text.SplitOn` | auth_routes.py:112 | `str.split` on one character: at least one piece, no piece holds the separator, and joining the pieces gives the string back. |
| `Text.SplitJoin` | auth_routes.py:112-121 | Splitting a join of separator-free pieces gives back the pieces. |
| `Text.NonEmpty` | auth_routes.py:112 | Keeps exactly the non-empty pieces. |
| `Text.NonEmptyOfOne` | auth_routes.py:112 | A one-piece list keeps its piece iff the piece is not empty. |
| `Text.NonEmptyAppend` | auth_routes.py:112 | The filter distributes over concatenation. With `NonEmptyOfOne`, it keeps every non-empty piece in order. |
| `Text.SplitOnAround` | auth_routes.py:112 | Splitting at a separator placed between two strings gives the pieces of the first, then those of the second. |
| `Text.Words` | auth_routes.py:112 | The parts of a name are non-empty and hold no space. |
| `Text.WordsOfWord` | auth_routes.py:112 | A string with no space is its own only word, unless it is empty. |
| `Text.WordsAround` | auth_routes.py:112 | The words of `a + " " + b` are those of `a`, then those of `b`. So the words are the maximal runs of non-space characters, in order. |
| `Text.WordsOfJoin` | auth_routes.py:112-121 | Words joined by single spaces split back into the same words. |
| `Text.NatToString` | api_key_manager.py:53 | `str(n)` is a non-empty string of digits with no leading zero, and zero is `"0"`. |
| `Text.NatToStringValue` | api_key_manager.py:53 | Reading the digits back gives the number. |
| `Text.CanonicalNumeral` | api_key_manager.py:53 | `str(n)` is the only numeral for `n` without a leading zero. So the default name `key_<n+1>` is fixed letter for letter. |

`Freemium.Serve` also models `flashcard_freemium` (freemium_routes.py:47-80), with the caps 4 and 8 and its own load-error message.

## Left out

- The text-generation SDK (`genai.configure`, `GenerativeModel`, `generate_content`) is a foreign network call. It is an abstract function from the configured key and the attempt number to a reply. Configuring the client is the `configured` field.
- `get_status` and `list_keys` only print. Timestamps are integers, not ISO strings, so `isoformat` and `strftime` are not modelled.
- `time.sleep(2)` in the retry loop only waits.
- Concurrency: each operation is one atomic step on an immutable manager. The manager is shared by concurrent requests and has no lock. Interleaved load, modify and save by concurrent callers, and the lost updates they allow, are not modelled.
- Reading and writing the JSON file is not modelled. The `saved` field records which store was written last.
- A corrupt or unreadable key file raises in `_load_keys`; that case is not modelled.
- Console messages are not modelled, nor is the `reason` argument of `rotate_key`, which is used only in a message.
- The interactive menu of the setup script is not modelled.
- The `except Exception` branch of the setup loop (setup_keys.py:55-57) is not modelled as a separate path. It wraps the saving `add_key` and the "add another?" prompt.
- The input running out is modelled as the session ending (`InputExhausted`), with the keys added so far kept. At the "add another?" prompt, `input()` raises `EOFError`. The `except` catches it and the loop goes round again. Then the name prompt at setup_keys.py:28, which is outside the `try`, raises `EOFError` again, and the script stops. An `EOFError` at the name or key prompt stops the script at once. In every case nothing more is added.
- The SQL queries are not modelled: student counts, plan lookup, e-mail uniqueness and the rows of the last seven days. The rows and the student's plan are inputs.
- The percentage formatting of averages in `get_stats` uses floating point and is not modelled.
- Other files are not part of this model: the premium routes, the application and chat setup, the configuration and schema scripts, the quiz-saving routes and the file-loading helper.
- `carregar_dados_json` is not modelled; the bank it returns is an input. A file that cannot be read gives an empty bank, which the route answers with 500.
- `request.get_json()` returning nothing (a body that is not JSON) is not modelled.
- Only a string `id_aluno` is modelled, so a numeric id of 0 is not.
- A `category` that is not a string is not modelled.
- The `Text` module covers only ASCII and the Latin-1 Supplement, not Python's full Unicode tables:
  - Case mapping stops at ASCII and Latin-1, one character to one. `ß` is left unchanged by upper-casing, although Python's `"ß".upper()` is the two letters `"SS"`. `Upper` and `Capitalize` always keep the length. `µ` is left unchanged too, although its Python capital is the Greek `Μ` (U+039C). `ÿ` does become `Ÿ`, but lower-casing leaves `Ÿ` as it is.
  - Characters outside Latin-1 that Python maps into ASCII are left unchanged. Examples are the Kelvin sign, dotless `ı`, long `ſ` and ligatures.
  - White space for `strip` and `\s` is the ASCII and Latin-1 white space, namely TAB to CR, the separators U+001C to U+001F, space, NEL and NO-BREAK SPACE.
  - `Capitalize` follows the same repertoire.

=== FILE: admin_stats.dfy ===
/** The "quizzes by plan and theme" panel of the administrator dashboard (`get_stats`).

    The rows of the last seven days arrive as `(tema, plano)` pairs; the query that
    produces them is not part of this model. Each row is put into one of three theme
    buckets and counted under its student's plan, and the 2x3 table becomes three
    two-element series for the chart. */
module AdminStats {
  import opened Wrappers
  import opened Text

  /** One result row: the quiz theme and the plan of the student who took it, each
      possibly null. */
  datatype Row = Row(tema: Option<string>, plano: Option<string>)

  datatype Category = Filosofia | Sociologia | Diversos

  datatype Plan = Freemium | Premium
  {
    /** The chart label of the plan. */
    function Label(): string {
      match this
      case Freemium => "Freemium"
      case Premium => "Premium"
    }
  }

  /** The plans in chart order. */
  const Plans: seq<Plan> := [Freemium, Premium]

  /** The theme used when a row has none. */
  const UnknownTheme: string := "Desconhecido"

  /** A null or empty theme stands for `UnknownTheme`. */
  function ThemeOf(tema: Option<string>): (r: string)
    ensures |r| > 0
    ensures tema.Some? && |tema.value| > 0 ==> r == tema.value
    ensures tema.None? || |tema.value| == 0 ==> r == UnknownTheme
  {
    if tema.Some? && |tema.value| > 0 then tema.value else UnknownTheme
  }

  /** The bucket of a theme: philosophy wins over sociology, and a theme naming neither
      is miscellaneous. Both tests are on the upper-cased theme. */
  function Categorize(tema: string): (c: Category)
    ensures c == Filosofia <==> Contains(Upper(tema), "FILOSOFIA")
    ensures c == Sociologia <==>
              !Contains(Upper(tema), "FILOSOFIA") && Contains(Upper(tema), "SOCIOLOGIA")
    ensures c == Diversos <==>
              !Contains(Upper(tema), "FILOSOFIA") && !Contains(Upper(tema), "SOCIOLOGIA")
  {
    var upper := Upper(tema);
    if IsSubstring("FILOSOFIA", upper) then Filosofia
    else if IsSubstring("SOCIOLOGIA", upper) then Sociologia
    else Diversos
  }

  /** The letter case of a theme does not matter. */
  lemma CategorizeIgnoresCase(tema: string)
    ensures Categorize(Lower(tema)) == Categorize(tema)
  {
    assert Upper(Lower(tema)) == Upper(tema);
  }

  /** A theme whose upper-cased form has no `F` and no `L` names neither subject. */
  lemma NoSubjectLetters(tema: string)
    requires 'F' !in Upper(tema) && 'L' !in Upper(tema)
    ensures Categorize(tema) == Diversos
  {
    ContainsCharOf(Upper(tema), "FILOSOFIA", 0);
    ContainsCharOf(Upper(tema), "SOCIOLOGIA", 5);
  }

  /** A row without a theme is miscellaneous. */
  lemma MissingThemeIsDiversos(tema: Option<string>)
    requires tema.None? || |tema.value| == 0
    ensures Categorize(ThemeOf(tema)) == Diversos
  {
    var t := ThemeOf(tema);
    var upper := Upper(t);
    forall i | 0 <= i < |upper|
      ensures upper[i] != 'F' && upper[i] != 'L'
    {
      assert t[i] in UnknownTheme;
    }
    NoSubjectLetters(t);
  }

  /** The plan of a row, when it is one of the two the table counts. */
  function PlanOf(plano: Option<string>): (r: Option<Plan>)
    ensures r == Some(Freemium) <==> plano == Some("freemium")
    ensures r == Some(Premium) <==> plano == Some("premium")
    ensures r.None? <==> plano != Some("freemium") && plano != Some("premium")
  {
    if plano == Some("freemium") then Some(Freemium)
    else if plano == Some("premium") then Some(Premium)
    else None
  }

  /** Whether a row is counted in the cell `(p, c)`. */
  predicate InCell(row: Row, p: Plan, c: Category) {
    PlanOf(row.plano) == Some(p) && Categorize(ThemeOf(row.tema)) == c
  }

  /** The three counters of one plan. */
  datatype Counts = Counts(filosofia: nat, sociologia: nat, diversos: nat)
  {
    function Get(c: Category): nat {
      match c
      case Filosofia => filosofia
      case Sociologia => sociologia
      case Diversos => diversos
    }

    function Total(): nat {
      filosofia + sociologia + diversos
    }

    /** One more under `c`, the others unchanged. */
    function Inc(c: Category): (r: Counts)
      ensures r.Get(c) == Get(c) + 1
      ensures forall d :: d != c ==> r.Get(d) == Get(d)
      ensures r.Total() == Total() + 1
    {
      match c
      case Filosofia => this.(filosofia := filosofia + 1)
      case Sociologia => this.(sociologia := sociologia + 1)
      case Diversos => this.(diversos := diversos + 1)
    }
  }

  /** The 2x3 table, `data_map`. */
  datatype Table = Table(freemium: Counts, premium: Counts)
  {
    function Of(p: Plan): Counts {
      match p
      case Freemium => freemium
      case Premium => premium
    }

    function Get(p: Plan, c: Category): nat {
      Of(p).Get(c)
    }

    function Total(): nat {
      freemium.Total() + premium.Total()
    }

    /** One more in the cell `(p, c)`, every other cell unchanged. */
    function Bump(p: Plan, c: Category): (r: Table)
      ensures r.Get(p, c) == Get(p, c) + 1
      ensures forall q, d :: (q, d) != (p, c) ==> r.Get(q, d) == Get(q, d)
      ensures r.Total() == Total() + 1
    {
      match p
      case Freemium => this.(freemium := freemium.Inc(c))
      case Premium => this.(premium := premium.Inc(c))
    }
  }

  const EmptyCounts := Counts(0, 0, 0)
  const EmptyTable := Table(EmptyCounts, EmptyCounts)

  /** The number of rows that belong in the cell `(p, c)`. */
  function CountCell(rows: seq<Row>, p: Plan, c: Category): nat {
    if |rows| == 0 then 0
    else CountCell(rows[..|rows| - 1], p, c) + (if InCell(rows[|rows| - 1], p, c) then 1 else 0)
  }

  /** The number of rows whose plan is one of the two counted. */
  function CountKnownPlan(rows: seq<Row>): nat {
    if |rows| == 0 then 0
    else CountKnownPlan(rows[..|rows| - 1]) + (if PlanOf(rows[|rows| - 1].plano).Some? then 1 else 0)
  }

  /** The six cells of the counts, added up. */
  function CellSum(rows: seq<Row>): nat {
    CountCell(rows, Freemium, Filosofia) + CountCell(rows, Freemium, Sociologia)
    + CountCell(rows, Freemium, Diversos) + CountCell(rows, Premium, Filosofia)
    + CountCell(rows, Premium, Sociologia) + CountCell(rows, Premium, Diversos)
  }

  /** Every row of a counted plan lands in exactly one cell, and the others in none. */
  lemma {:induction false} CellsAddUpToKnownRows(rows: seq<Row>)
    ensures CellSum(rows) == CountKnownPlan(rows)
    decreases |rows|
  {
    if |rows| > 0 {
      CellsAddUpToKnownRows(rows[..|rows| - 1]);
    }
  }

  /** The counting loop of `get_stats`. */
  method Tally(rows: seq<Row>) returns (t: Table)
    ensures forall p, c :: t.Get(p, c) == CountCell(rows, p, c)
    ensures t.Total() == CountKnownPlan(rows)
  {
    t := EmptyTable;
    var i := 0;
    while i < |rows|
      invariant 0 <= i <= |rows|
      invariant forall p, c :: t.Get(p, c) == CountCell(rows[..i], p, c)
    {
      assert rows[..i + 1][..i] == rows[..i];
      var p := PlanOf(rows[i].plano);
      if p.Some? {
        t := t.Bump(p.value, Categorize(ThemeOf(rows[i].tema)));
      }
      i := i + 1;
    }
    assert rows[..|rows|] == rows;
    CellsAddUpToKnownRows(rows);
    assert t.Total() == CellSum(rows);
  }

  /** `quizzes_por_plano_e_tema`: the labels and one series per theme bucket. */
  datatype Chart = Chart(
    labels: seq<string>,
    dataFilosofia: seq<nat>,
    dataSociologia: seq<nat>,
    dataDiversos: seq<nat>)
  {
    function Series(c: Category): seq<nat> {
      match c
      case Filosofia => dataFilosofia
      case Sociologia => dataSociologia
      case Diversos => dataDiversos
    }
  }

  /** Each series lists its bucket's counts in the order of the labels. */
  function ChartOf(t: Table): (r: Chart)
    ensures r.labels == ["Freemium", "Premium"]
    ensures forall i :: 0 <= i < |Plans| ==> r.labels[i] == Plans[i].Label()
    ensures forall c :: |r.Series(c)| == |r.labels|
    ensures forall c, i :: 0 <= i < |Plans| ==> r.Series(c)[i] == t.Get(Plans[i], c)
  {
    Chart(
      [Freemium.Label(), Premium.Label()],
      [t.Get(Freemium, Filosofia), t.Get(Premium, Filosofia)],
      [t.Get(Freemium, Sociologia), t.Get(Premium, Sociologia)],
      [t.Get(Freemium, Diversos), t.Get(Premium, Diversos)])
  }

  /** The panel from the rows: every entry of a series counts its rows. */
  method PlanThemeChart(rows: seq<Row>) returns (chart: Chart)
    ensures chart.labels == ["Freemium", "Premium"]
    ensures forall c :: |chart.Series(c)| == 2
    ensures forall c, i :: 0 <= i < |Plans| ==> chart.Series(c)[i] == CountCell(rows, Plans[i], c)
  {
    var t := Tally(rows);
    chart := ChartOf(t);
  }
}

=== FILE: auth_validators.dfy ===
/** The registration validators: `validar_email`, `validar_senha` and `validar_nome`.

    Each takes the field as it arrives in the request body (`None` when it is absent or
    null) and returns a verdict; the messages the routes send back are attached to the
    verdicts. The regular expressions of `auth_routes.py` are written out as predicates over
    characters. */
module AuthValidators {
  import opened Wrappers
  import opened Text

  // ---------------------------------------------------------------------------
  // E-mail
  // ---------------------------------------------------------------------------

  /** `[a-zA-Z0-9._%+-]`, the characters before the `@`. */
  predicate IsLocalChar(c: char) {
    IsAsciiLetter(c) || IsAsciiDigit(c) || c == '.' || c == '_' || c == '%' || c == '+' || c == '-'
  }

  /** `[a-zA-Z0-9.-]`, the characters between the `@` and the final dot. */
  predicate IsDomainChar(c: char) {
    IsAsciiLetter(c) || IsAsciiDigit(c) || c == '.' || c == '-'
  }

  /** `s` matches `^[a-zA-Z0-9._%+-]+@[a-zA-Z0-9.-]+\.[a-zA-Z]{2,}$` with the `@` at `at`
      and the dot before the final letters at `dot`. */
  predicate EmailSplit(s: string, at: int, dot: int) {
    && 0 < at && at + 1 < dot && dot + 2 < |s|
    && s[at] == '@' && s[dot] == '.'
    && (forall k :: 0 <= k < at ==> IsLocalChar(s[k]))
    && (forall k :: at < k < dot ==> IsDomainChar(s[k]))
    && (forall k :: dot < k < |s| ==> IsAsciiLetter(s[k]))
  }

  /** The regular expression matches `s` in some way. */
  ghost predicate IsEmailShape(s: string) {
    exists at, dot :: EmailSplit(s, at, dot)
  }

  /** A match can only put the `@` at the first `@` of the string, and the dot at its last
      dot: neither character class before them admits them, and only letters follow. */
  lemma EmailSplitIsUnique(s: string)
    ensures IsEmailShape(s) ==>
      && IndexOf(s, '@').Some? && LastIndexOf(s, '.').Some?
      && EmailSplit(s, IndexOf(s, '@').value, LastIndexOf(s, '.').value)
  {
    if IsEmailShape(s) {
      var at, dot :| EmailSplit(s, at, dot);
      assert '@' in s && '.' in s;
      assert IndexOf(s, '@').value == at;
      assert LastIndexOf(s, '.').value == dot;
    }
  }

  /** The regular-expression test, by locating the first `@` and the last dot. */
  function MatchesEmail(s: string): (r: bool)
    ensures r <==> IsEmailShape(s)
  {
    EmailSplitIsUnique(s);
    var at := IndexOf(s, '@');
    var dot := LastIndexOf(s, '.');
    at.Some? && dot.Some? && EmailSplit(s, at.value, dot.value)
  }

  /** The longest e-mail address accepted. */
  const MaxEmailLength := 100

  datatype EmailVerdict = EmailOk | EmailRequired | EmailMalformed | EmailTooLong
  {
    /** The error message of the verdict; `None` for an accepted address. */
    function Message(): Option<string> {
      match this
      case EmailOk => None
      case EmailRequired => Some("E-mail é obrigatório")
      case EmailMalformed => Some("Formato de e-mail inválido")
      case EmailTooLong => Some("E-mail muito longo (máximo 100 caracteres)")
    }
  }

  /** `validar_email`: required, then the format of the stripped lower-cased address, and
      only then its length. */
  function ValidateEmail(email: Option<string>): (r: EmailVerdict)
    ensures r == EmailRequired <==> email.None? || AllSpace(email.value)
    ensures r == EmailMalformed <==>
              email.Some? && !AllSpace(email.value) && !IsEmailShape(Lower(Strip(email.value)))
    ensures r == EmailTooLong <==>
              email.Some? && IsEmailShape(Lower(Strip(email.value))) && |Strip(email.value)| > MaxEmailLength
    ensures r == EmailOk <==>
              email.Some? && IsEmailShape(Lower(Strip(email.value))) && |Strip(email.value)| <= MaxEmailLength
  {
    if email.None? || |Strip(email.value)| == 0 then EmailRequired
    else
      var normal := Lower(Strip(email.value));
      if !MatchesEmail(normal) then EmailMalformed
      else if |normal| > MaxEmailLength then EmailTooLong
      else EmailOk
  }

  /** Any address assembled from a local part, a domain and a top-level domain of the
      allowed lower-case characters, short enough, is accepted as it stands. */
  lemma EmailFromParts(local: string, domain: string, tld: string)
    requires |local| >= 1 && |domain| >= 1 && |tld| >= 2
    requires forall k :: 0 <= k < |local| ==> IsLocalChar(local[k]) && !IsAsciiUpper(local[k])
    requires forall k :: 0 <= k < |domain| ==> IsDomainChar(domain[k]) && !IsAsciiUpper(domain[k])
    requires forall k :: 0 <= k < |tld| ==> IsAsciiLower(tld[k])
    requires |local| + |domain| + |tld| + 2 <= MaxEmailLength
    ensures ValidateEmail(Some(local + "@" + domain + "." + tld)) == EmailOk
  {
    var s := local + "@" + domain + "." + tld;
    PartsAreAddress(local, domain, tld);
    StripOfTrimmed(s);
    LowerOfNoUpper(s);
  }

  /** Where the `@` and the final dot of the assembled address lie, and that its
      characters are ASCII without upper case. */
  lemma PartsAreAddress(local: string, domain: string, tld: string)
    requires |local| >= 1 && |domain| >= 1 && |tld| >= 2
    requires forall k :: 0 <= k < |local| ==> IsLocalChar(local[k]) && !IsAsciiUpper(local[k])
    requires forall k :: 0 <= k < |domain| ==> IsDomainChar(domain[k]) && !IsAsciiUpper(domain[k])
    requires forall k :: 0 <= k < |tld| ==> IsAsciiLower(tld[k])
    ensures EmailSplit(local + "@" + domain + "." + tld, |local|, |local| + 1 + |domain|)
    ensures var s := local + "@" + domain + "." + tld;
            forall k :: 0 <= k < |s| ==> !IsAsciiUpper(s[k]) && !IsLatin1Upper(s[k])
  {
    var s := local + "@" + domain + "." + tld;
    var at := |local|;
    var dot := |local| + 1 + |domain|;
    assert forall k :: 0 <= k < at ==> s[k] == local[k];
    assert forall k :: at < k < dot ==> s[k] == domain[k - at - 1];
    assert forall k :: dot < k < |s| ==> s[k] == tld[k - dot - 1];
  }

  // ---------------------------------------------------------------------------
  // Password
  // ---------------------------------------------------------------------------

  /** The special characters of the class at the password's fourth complexity check. */
  const SpecialChars: string := "!@#$%^&*()_+-=[]{};':\"\\|,.<>/?"

  /** The passwords refused whatever their letter case. */
  const CommonPasswords: seq<string> := [
    "123456", "123456789", "qwerty", "password", "12345678",
    "111111", "123123", "1234567890", "1234567", "senha",
    "senha123", "admin", "admin123", "root", "12345",
    "password123", "abc123", "1q2w3e4r", "qwerty123", "letmein"
  ]

  const MinPasswordLength := 8
  const MaxPasswordLength := 128

  /** `(.)\1{2,}`: three equal characters in a row, other than line breaks (`.` does not
      match a newline). */
  predicate HasTripleRun(s: string) {
    exists i :: 0 <= i < |s| - 2 && s[i] != '\n' && s[i] == s[i + 1] && s[i + 1] == s[i + 2]
  }

  predicate IsSpecialChar(c: char) {
    c in SpecialChars
  }

  predicate HasCharWhere(s: string, p: char -> bool) {
    exists i :: 0 <= i < |s| && p(s[i])
  }

  /** The errors `validar_senha` can report, in the order it checks them. */
  datatype PasswordError =
    | PasswordRequired | TooShort | TooLong | NoUppercase | NoLowercase | NoDigit | NoSpecial
    | TooCommon | Repeated
  {
    function Message(): string {
      match this
      case PasswordRequired => "Senha é obrigatória"
      case TooShort => "A senha deve ter no mínimo 8 caracteres"
      case TooLong => "A senha deve ter no máximo 128 caracteres"
      case NoUppercase => "Deve conter pelo menos uma letra maiúscula"
      case NoLowercase => "Deve conter pelo menos uma letra minúscula"
      case NoDigit => "Deve conter pelo menos um número"
      case NoSpecial => "Deve conter pelo menos um caractere especial (!@#$%&*)"
      case TooCommon => "Esta senha é muito comum. Escolha uma senha mais segura"
      case Repeated => "Evite repetir o mesmo caractere mais de 2 vezes seguidas"
    }
  }

  /** The checks a non-empty password goes through, in order. */
  const PasswordChecks: seq<PasswordError> :=
    [TooShort, TooLong, NoUppercase, NoLowercase, NoDigit, NoSpecial, TooCommon, Repeated]

  /** The position of a check in the order of `validar_senha`. */
  function Rank(e: PasswordError): nat {
    match e
    case PasswordRequired => 0
    case TooShort => 1
    case TooLong => 2
    case NoUppercase => 3
    case NoLowercase => 4
    case NoDigit => 5
    case NoSpecial => 6
    case TooCommon => 7
    case Repeated => 8
  }

  /** The non-empty password `s` fails the check `e`. */
  predicate Fails(s: string, e: PasswordError) {
    match e
    case PasswordRequired => false
    case TooShort => |s| < MinPasswordLength
    case TooLong => |s| > MaxPasswordLength
    case NoUppercase => !HasCharWhere(s, IsAsciiUpper)
    case NoLowercase => !HasCharWhere(s, IsAsciiLower)
    case NoDigit => !HasCharWhere(s, IsAsciiDigit)
    case NoSpecial => !HasCharWhere(s, IsSpecialChar)
    case TooCommon => Lower(s) in CommonPasswords
    case Repeated => HasTripleRun(s)
  }

  predicate RankIncreasing(es: seq<PasswordError>) {
    forall i, j :: 0 <= i < j < |es| ==> Rank(es[i]) < Rank(es[j])
  }

  /** The checks of `checks` for which `keep` holds, in order (the list comprehension that
      collects the failed checks). */
  function KeepChecks(checks: seq<PasswordError>, keep: PasswordError -> bool): (r: seq<PasswordError>)
    ensures forall e :: e in r <==> e in checks && keep(e)
    ensures |r| == 0 <==> forall e :: e in checks ==> !keep(e)
  {
    if |checks| == 0 then []
    else if keep(checks[0]) then [checks[0]] + KeepChecks(checks[1..], keep)
    else KeepChecks(checks[1..], keep)
  }

  /** Filtering keeps a lower bound on the ranks. */
  lemma {:induction false} KeepChecksAbove(checks: seq<PasswordError>, keep: PasswordError -> bool, lo: int)
    requires forall i :: 0 <= i < |checks| ==> lo < Rank(checks[i])
    ensures forall i :: 0 <= i < |KeepChecks(checks, keep)| ==> lo < Rank(KeepChecks(checks, keep)[i])
    decreases |checks|
  {
    if |checks| > 0 {
      KeepChecksAbove(checks[1..], keep, lo);
    }
  }

  /** Filtering keeps the order of the checks. */
  lemma {:induction false} KeepChecksOrdered(checks: seq<PasswordError>, keep: PasswordError -> bool)
    requires RankIncreasing(checks)
    ensures RankIncreasing(KeepChecks(checks, keep))
    decreases |checks|
  {
    if |checks| > 0 {
      var rest := KeepChecks(checks[1..], keep);
      assert forall i :: 0 <= i < |checks[1..]| ==> checks[1..][i] == checks[i + 1];
      KeepChecksOrdered(checks[1..], keep);
      if keep(checks[0]) {
        KeepChecksAbove(checks[1..], keep, Rank(checks[0]));
        RankIncreasingCons(checks[0], rest);
      }
    }
  }

  /** A check ranked below every check of an ordered list can go in front of it. */
  lemma RankIncreasingCons(e: PasswordError, es: seq<PasswordError>)
    requires RankIncreasing(es)
    requires forall i :: 0 <= i < |es| ==> Rank(e) < Rank(es[i])
    ensures RankIncreasing([e] + es)
  {
    var r := [e] + es;
    forall i, j | 0 <= i < j < |r|
      ensures Rank(r[i]) < Rank(r[j])
    {
      assert r[j] == es[j - 1];
      if i > 0 {
        assert r[i] == es[i - 1];
      }
    }
  }

  lemma PasswordChecksRanked()
    ensures RankIncreasing(PasswordChecks)
  {
    forall i, j | 0 <= i < j < |PasswordChecks|
      ensures Rank(PasswordChecks[i]) < Rank(PasswordChecks[j])
    {
      assert Rank(PasswordChecks[i]) == i + 1;
      assert Rank(PasswordChecks[j]) == j + 1;
    }
  }

  /** The list holds every check but the one for a missing password. */
  lemma PasswordChecksCoverAll()
    ensures forall e :: e in PasswordChecks <==> e != PasswordRequired
  {
    forall e | e != PasswordRequired
      ensures e in PasswordChecks
    {
      assert PasswordChecks[Rank(e) - 1] == e;
    }
    forall e | e in PasswordChecks
      ensures e != PasswordRequired
    {
      var i :| 0 <= i < |PasswordChecks| && PasswordChecks[i] == e;
      assert Rank(PasswordChecks[i]) == i + 1;
    }
  }

  /** Every requirement of `validar_senha` on a non-empty password, stated directly. */
  predicate StrongPassword(s: string) {
    && MinPasswordLength <= |s| <= MaxPasswordLength
    && HasCharWhere(s, IsAsciiUpper)
    && HasCharWhere(s, IsAsciiLower)
    && HasCharWhere(s, IsAsciiDigit)
    && HasCharWhere(s, IsSpecialChar)
    && Lower(s) !in CommonPasswords
    && !HasTripleRun(s)
  }

  /** Passing every check in the list is being a strong password. */
  lemma PassingAllChecks(s: string)
    ensures (forall e :: e in PasswordChecks ==> !Fails(s, e)) <==> StrongPassword(s)
  {
    if forall e :: e in PasswordChecks ==> !Fails(s, e) {
      assert !Fails(s, PasswordChecks[0]) && !Fails(s, PasswordChecks[1]);
      assert !Fails(s, PasswordChecks[2]) && !Fails(s, PasswordChecks[3]);
      assert !Fails(s, PasswordChecks[4]) && !Fails(s, PasswordChecks[5]);
      assert !Fails(s, PasswordChecks[6]) && !Fails(s, PasswordChecks[7]);
    }
  }

  /** `validar_senha`: the verdict and the error list. */
  function ValidatePassword(password: Option<string>): (r: (bool, seq<PasswordError>))
    ensures password.None? || |password.value| == 0 ==> r == (false, [PasswordRequired])
    ensures password.Some? && |password.value| > 0 ==>
              forall e :: e in r.1 <==> e != PasswordRequired && Fails(password.value, e)
    ensures RankIncreasing(r.1)
    ensures r.0 <==> |r.1| == 0
    ensures r.0 <==> password.Some? && StrongPassword(password.value)
  {
    if password.None? || |password.value| == 0 then (false, [PasswordRequired])
    else
      var errors := KeepChecks(PasswordChecks, e => Fails(password.value, e));
      PasswordChecksRanked();
      PasswordChecksCoverAll();
      KeepChecksOrdered(PasswordChecks, e => Fails(password.value, e));
      PassingAllChecks(password.value);
      (|errors| == 0, errors)
  }

  // ---------------------------------------------------------------------------
  // Full name
  // ---------------------------------------------------------------------------

  /** `[a-zA-ZÀ-ÿ\s]`: ASCII letters, everything from U+00C0 to U+00FF (which takes in `×`
      and `÷`), and white space. */
  predicate IsNameChar(c: char) {
    IsAsciiLetter(c) || ('\U{00C0}' <= c <= '\U{00FF}') || IsSpace(c)
  }

  const MinNameLength := 3
  const MaxNameLength := 100

  datatype NameVerdict =
    | NameOk(formatted: string)
    | NameRequired | NameTooShort | NameTooLong | NameIncomplete | NameNotLetters
  {
    function Message(): Option<string> {
      match this
      case NameOk(_) => None
      case NameRequired => Some("Nome é obrigatório")
      case NameTooShort => Some("O nome deve ter no mínimo 3 caracteres")
      case NameTooLong => Some("O nome deve ter no máximo 100 caracteres")
      case NameIncomplete => Some("Por favor, digite nome e sobrenome completos")
      case NameNotLetters => Some("O nome deve conter apenas letras")
    }
  }

  /** Each word capitalised, `[p.capitalize() for p in partes]`. */
  function CapitalizeAll(ws: seq<string>): (r: seq<string>)
    ensures |r| == |ws|
    ensures forall i :: 0 <= i < |ws| ==> r[i] == Capitalize(ws[i])
  {
    if |ws| == 0 then [] else [Capitalize(ws[0])] + CapitalizeAll(ws[1..])
  }

  /** Capitalising a list capitalises each part of it: the map distributes over
      concatenation and leaves capitalised words as they are. */
  lemma {:induction false} CapitalizeAllAppend(a: seq<string>, b: seq<string>)
    ensures CapitalizeAll(a + b) == CapitalizeAll(a) + CapitalizeAll(b)
  {
    if |a| > 0 {
      assert (a + b)[1..] == a[1..] + b;
      CapitalizeAllAppend(a[1..], b);
    } else {
      assert a + b == b;
    }
  }

  /** Capitalising a list twice is capitalising it once. */
  lemma CapitalizeAllIdempotent(ws: seq<string>)
    ensures CapitalizeAll(CapitalizeAll(ws)) == CapitalizeAll(ws)
  {
    var c := CapitalizeAll(ws);
    forall i | 0 <= i < |ws|
      ensures CapitalizeAll(c)[i] == c[i]
    {
      CapitalizeIdempotent(ws[i]);
    }
  }

  /** Capitalising keeps words non-empty and free of spaces. */
  lemma CapitalizedWords(ws: seq<string>)
    requires forall i :: 0 <= i < |ws| ==> |ws[i]| > 0 && ' ' !in ws[i]
    ensures forall i :: 0 <= i < |ws| ==>
              |CapitalizeAll(ws)[i]| > 0 && ' ' !in CapitalizeAll(ws)[i]
  {
    var r := CapitalizeAll(ws);
    forall i | 0 <= i < |ws|
      ensures |r[i]| > 0 && ' ' !in r[i]
    {
      var w := ws[i];
      forall k | 0 <= k < |w|
        ensures r[i][k] != ' '
      {
        assert w[k] != ' ';
      }
    }
  }

  /** `validar_nome`: the checks in order on the stripped name, then the formatted name. */
  function ValidateName(name: Option<string>): (r: NameVerdict)
    ensures r == NameRequired <==> name.None? || AllSpace(name.value)
    ensures r == NameTooShort <==>
              name.Some? && !AllSpace(name.value) && |Strip(name.value)| < MinNameLength
    ensures r == NameTooLong <==>
              name.Some? && |Strip(name.value)| > MaxNameLength
    ensures r == NameIncomplete <==>
              && name.Some? && MinNameLength <= |Strip(name.value)| <= MaxNameLength
              && |Words(Strip(name.value))| < 2
    ensures r == NameNotLetters <==>
              && name.Some? && MinNameLength <= |Strip(name.value)| <= MaxNameLength
              && |Words(Strip(name.value))| >= 2
              && !(forall k :: 0 <= k < |Strip(name.value)| ==> IsNameChar(Strip(name.value)[k]))
    ensures r.NameOk? <==>
              && name.Some? && MinNameLength <= |Strip(name.value)| <= MaxNameLength
              && |Words(Strip(name.value))| >= 2
              && (forall k :: 0 <= k < |Strip(name.value)| ==> IsNameChar(Strip(name.value)[k]))
    ensures r.NameOk? ==> r.formatted == Join(CapitalizeAll(Words(Strip(name.value))), ' ')
    ensures r.NameOk? ==> Words(r.formatted) == CapitalizeAll(Words(Strip(name.value)))
  {
    if name.None? || |Strip(name.value)| == 0 then NameRequired
    else
      var s := Strip(name.value);
      if |s| < MinNameLength then NameTooShort
      else if |s| > MaxNameLength then NameTooLong
      else
        var parts := Words(s);
        if |parts| < 2 then NameIncomplete
        else if !(forall k :: 0 <= k < |s| ==> IsNameChar(s[k])) then NameNotLetters
        else
          var words := CapitalizeAll(parts);
          CapitalizedWords(parts);
          WordsOfJoin(words);
          NameOk(Join(words, ' '))
  }
}

=== FILE: freemium.dfy ===
/** The free-tier quiz and flashcard routes: who may ask, and which items of the bank
    are handed out.

    The student's plan and the bank of items are inputs (they come from the database and
    from a JSON file); `random.shuffle` is a method that guarantees only that its result
    is a permutation of its argument. */
module Freemium {
  import opened Wrappers

  /** A question or flashcard of the bank: its `category` field, absent or null as
      `None`, and the rest of the object. */
  datatype Item = Item(category: Option<string>, content: string)

  /** The request body: the student id (`None` when absent or null) and the `category`
      field (`None` when the key is absent, `Some(None)` when it is null). */
  datatype Request = Request(idAluno: Option<string>, category: Option<Option<string>>)

  const Both: string := "ambos"
  const Philosophy: string := "filosofia"
  const Sociology: string := "sociologia"
  const FreePlan: string := "freemium"

  /** The two routes share their shape and differ in their limits and one message. */
  datatype Route = Quiz | Flashcard
  {
    /** At most this many items of each subject when both are asked for. */
    function PerCategory(): nat {
      match this
      case Quiz => 5
      case Flashcard => 4
    }

    /** At most this many items in all. */
    function Total(): nat {
      match this
      case Quiz => 10
      case Flashcard => 8
    }

    function LoadError(): string {
      match this
      case Quiz => "Não foi possível carregar as perguntas."
      case Flashcard => "Não foi possível carregar os flashcards."
    }
  }

  datatype Response = Rejected(status: nat, message: string) | Served(items: seq<Item>)

  const IdRequired: string := "ID do aluno é obrigatório."
  const WrongPlan: string := "Rota inválida para seu plano."

  /** `data.get('category', 'ambos')`: the category compared against the items. */
  function ChosenCategory(req: Request): (r: Option<string>)
    ensures req.category.None? ==> r == Some(Both)
    ensures req.category.Some? ==> r == req.category.value
  {
    if req.category.None? then Some(Both) else req.category.value
  }

  function Min(a: nat, b: nat): nat {
    if a <= b then a else b
  }

  // ---------------------------------------------------------------------------
  // Filtering by category
  // ---------------------------------------------------------------------------

  /** Every item of `s` is of the category `c`. */
  predicate InCategory(s: seq<Item>, c: Option<string>) {
    forall i :: 0 <= i < |s| ==> s[i].category == c
  }

  /** Every item of `s` is of one of the two subjects. */
  predicate InSubjects(s: seq<Item>) {
    forall i :: 0 <= i < |s| ==> s[i].category == Some(Philosophy) || s[i].category == Some(Sociology)
  }

  /** `[p for p in bank if p.get('category') == c]`. */
  function Filter(s: seq<Item>, c: Option<string>): (r: seq<Item>)
    ensures |r| <= |s|
    ensures InCategory(r, c)
  {
    if |s| == 0 then []
    else if s[0].category == c then [s[0]] + Filter(s[1..], c)
    else Filter(s[1..], c)
  }

  /** The filter keeps every copy of each item of the category, and nothing else. */
  lemma {:induction false} FilterMultiset(s: seq<Item>, c: Option<string>)
    ensures forall x :: multiset(Filter(s, c))[x] == if x.category == c then multiset(s)[x] else 0
  {
    if |s| > 0 {
      FilterMultiset(s[1..], c);
      assert s == [s[0]] + s[1..];
    }
  }

  /** The filter distributes over concatenation. */
  lemma {:induction false} FilterAppend(a: seq<Item>, b: seq<Item>, c: Option<string>)
    ensures Filter(a + b, c) == Filter(a, c) + Filter(b, c)
  {
    if |a| > 0 {
      FilterAppend(a[1..], b, c);
      assert (a + b)[1..] == a[1..] + b;
    } else {
      assert a + b == b;
    }
  }

  /** A sequence all of one category passes its filter whole, and no other. */
  lemma {:induction false} FilterOfUniform(s: seq<Item>, c: Option<string>, d: Option<string>)
    requires InCategory(s, c)
    ensures Filter(s, c) == s
    ensures d != c ==> Filter(s, d) == []
  {
    if |s| > 0 {
      FilterOfUniform(s[1..], c, d);
    }
  }

  /** Two filters for different categories take disjoint parts of the sequence. */
  lemma DisjointFilters(s: seq<Item>, c: Option<string>, d: Option<string>)
    requires c != d
    ensures multiset(Filter(s, c)) + multiset(Filter(s, d)) <= multiset(s)
  {
    FilterMultiset(s, c);
    FilterMultiset(s, d);
  }

  /** Reordering does not change how many items a filter keeps. */
  lemma FilterOfPermutation(a: seq<Item>, b: seq<Item>, c: Option<string>)
    requires multiset(a) == multiset(b)
    ensures |Filter(a, c)| == |Filter(b, c)|
  {
    FilterMultiset(a, c);
    FilterMultiset(b, c);
    assert multiset(Filter(a, c)) == multiset(Filter(b, c));
    assert |multiset(Filter(a, c))| == |Filter(a, c)|;
  }

  /** The items of a sub-multiset of `t` are items of `t`. */
  lemma SubMultisetMembers(s: seq<Item>, t: seq<Item>)
    requires multiset(s) <= multiset(t)
    ensures forall i :: 0 <= i < |s| ==> s[i] in t
  {
    forall i | 0 <= i < |s|
      ensures s[i] in t
    {
      assert s[i] in multiset(s);
    }
  }

  /** A sub-multiset of a sequence within one category is within it too. */
  lemma SubMultisetKeepsCategory(s: seq<Item>, t: seq<Item>, c: Option<string>)
    requires multiset(s) <= multiset(t)
    requires InCategory(t, c)
    ensures InCategory(s, c)
  {
    SubMultisetMembers(s, t);
  }

  /** A sub-multiset of a sequence within the two subjects is within them too. */
  lemma SubMultisetKeepsSubjects(s: seq<Item>, t: seq<Item>)
    requires multiset(s) <= multiset(t)
    requires InSubjects(t)
    ensures InSubjects(s)
  {
    SubMultisetMembers(s, t);
  }

  /** A prefix takes no more copies of anything than the whole. */
  lemma TakeIsSubMultiset(s: seq<Item>, k: nat)
    requires k <= |s|
    ensures multiset(s[..k]) <= multiset(s)
  {
    assert s == s[..k] + s[k..];
  }

  // ---------------------------------------------------------------------------
  // Shuffling and selecting
  // ---------------------------------------------------------------------------

  /** `random.shuffle`: some permutation of `s`, each step picking any remaining item. */
  method Shuffle(s: seq<Item>) returns (r: seq<Item>)
    ensures multiset(r) == multiset(s)
  {
    r := [];
    var rest := s;
    while |rest| > 0
      invariant multiset(r) + multiset(rest) == multiset(s)
      decreases |rest|
    {
      var i :| 0 <= i < |rest|;
      assert rest == rest[..i] + [rest[i]] + rest[i + 1..];
      r := r + [rest[i]];
      rest := rest[..i] + rest[i + 1..];
    }
  }

  /** What the selection promises for the two subjects together. */
  predicate IsMixedSelection(bank: seq<Item>, route: Route, items: seq<Item>) {
    && InSubjects(items)
    && |Filter(items, Some(Philosophy))| == Min(route.PerCategory(), |Filter(bank, Some(Philosophy))|)
    && |Filter(items, Some(Sociology))| == Min(route.PerCategory(), |Filter(bank, Some(Sociology))|)
  }

  /** What the selection promises for one category. */
  predicate IsSingleSelection(bank: seq<Item>, chosen: Option<string>, route: Route, items: seq<Item>) {
    && InCategory(items, chosen)
    && |items| == Min(route.Total(), |Filter(bank, chosen)|)
  }

  /** What the selection promises, for the category chosen. */
  predicate IsSelection(bank: seq<Item>, chosen: Option<string>, route: Route, items: seq<Item>) {
    && multiset(items) <= multiset(bank)
    && |items| <= route.Total()
    && (chosen == Some(Both) ==> IsMixedSelection(bank, route, items))
    && (chosen != Some(Both) ==> IsSingleSelection(bank, chosen, route, items))
  }

  /** The first items of a shuffled subject are items of that subject in the bank. */
  lemma ShuffledPrefix(bank: seq<Item>, c: Option<string>, shuffled: seq<Item>, m: nat)
    requires multiset(shuffled) == multiset(Filter(bank, c))
    requires m <= |shuffled|
    ensures multiset(shuffled[..m]) <= multiset(Filter(bank, c))
    ensures InCategory(shuffled[..m], c)
  {
    TakeIsSubMultiset(shuffled, m);
    SubMultisetKeepsCategory(shuffled[..m], Filter(bank, c), c);
  }

  /** The shares of the two subjects, side by side, take no more of the bank than it has. */
  lemma SubjectsFromBank(bank: seq<Item>, fs: seq<Item>, ss: seq<Item>)
    requires multiset(fs) <= multiset(Filter(bank, Some(Philosophy)))
    requires multiset(ss) <= multiset(Filter(bank, Some(Sociology)))
    ensures multiset(fs + ss) <= multiset(bank)
  {
    DisjointFilters(bank, Some(Philosophy), Some(Sociology));
  }

  /** Side by side, each subject's share is what the subject's filter keeps. */
  lemma SubjectsApart(fs: seq<Item>, ss: seq<Item>)
    requires InCategory(fs, Some(Philosophy)) && InCategory(ss, Some(Sociology))
    ensures Filter(fs + ss, Some(Philosophy)) == fs
    ensures Filter(fs + ss, Some(Sociology)) == ss
  {
    FilterAppend(fs, ss, Some(Philosophy));
    FilterAppend(fs, ss, Some(Sociology));
    FilterOfUniform(fs, Some(Philosophy), Some(Sociology));
    FilterOfUniform(ss, Some(Sociology), Some(Philosophy));
  }

  /** Side by side, the two shares hold only the two subjects. */
  lemma SubjectsTogether(fs: seq<Item>, ss: seq<Item>)
    requires InCategory(fs, Some(Philosophy)) && InCategory(ss, Some(Sociology))
    ensures InSubjects(fs + ss)
  {
    forall i | 0 <= i < |fs + ss|
      ensures (fs + ss)[i].category == Some(Philosophy) || (fs + ss)[i].category == Some(Sociology)
    {
      if i < |fs| {
        assert (fs + ss)[i] == fs[i];
      } else {
        assert (fs + ss)[i] == ss[i - |fs|];
      }
    }
  }

  /** Shuffling keeps the subject counts of the picked items. */
  lemma ShuffledMix(bank: seq<Item>, route: Route, picked: seq<Item>, mixed: seq<Item>)
    requires multiset(mixed) == multiset(picked)
    requires IsMixedSelection(bank, route, picked)
    ensures IsMixedSelection(bank, route, mixed)
  {
    FilterOfPermutation(picked, mixed, Some(Philosophy));
    FilterOfPermutation(picked, mixed, Some(Sociology));
    SubMultisetKeepsSubjects(mixed, picked);
  }

  /** Cutting a shuffled filter to the route's total keeps one category and the bank's
      items. */
  lemma CutSingle(bank: seq<Item>, chosen: Option<string>, route: Route, mixed: seq<Item>, k: nat)
    requires multiset(mixed) == multiset(Filter(bank, chosen))
    requires k == Min(route.Total(), |mixed|)
    ensures multiset(mixed[..k]) <= multiset(bank)
    ensures IsSingleSelection(bank, chosen, route, mixed[..k])
  {
    assert |mixed| == |Filter(bank, chosen)| by {
      assert |multiset(mixed)| == |multiset(Filter(bank, chosen))|;
    }
    ShuffledPrefix(bank, chosen, mixed, k);
    FilterMultiset(bank, chosen);
  }

  /** `categoria == 'ambos'`: up to the per-subject limit of each subject, shuffled
      together. */
  method SelectBoth(bank: seq<Item>, route: Route) returns (items: seq<Item>)
    ensures multiset(items) <= multiset(bank)
    ensures |items| <= route.Total()
    ensures IsMixedSelection(bank, route, items)
  {
    var philosophy := Shuffle(Filter(bank, Some(Philosophy)));
    var sociology := Shuffle(Filter(bank, Some(Sociology)));
    assert |multiset(philosophy)| == |multiset(Filter(bank, Some(Philosophy)))|;
    assert |multiset(sociology)| == |multiset(Filter(bank, Some(Sociology)))|;
    var m1 := Min(route.PerCategory(), |philosophy|);
    var m2 := Min(route.PerCategory(), |sociology|);
    ShuffledPrefix(bank, Some(Philosophy), philosophy, m1);
    ShuffledPrefix(bank, Some(Sociology), sociology, m2);
    var picked := philosophy[..m1] + sociology[..m2];
    SubjectsFromBank(bank, philosophy[..m1], sociology[..m2]);
    SubjectsApart(philosophy[..m1], sociology[..m2]);
    SubjectsTogether(philosophy[..m1], sociology[..m2]);
    var mixed := Shuffle(picked);
    ShuffledMix(bank, route, picked, mixed);
    assert |multiset(mixed)| == |multiset(picked)|;
    items := mixed[..Min(route.Total(), |mixed|)];
    assert items == mixed;
  }

  /** Any other category: the items of exactly that category, shuffled and cut to the
      route's total. */
  method SelectOne(bank: seq<Item>, chosen: Option<string>, route: Route) returns (items: seq<Item>)
    ensures multiset(items) <= multiset(bank)
    ensures |items| <= route.Total()
    ensures IsSingleSelection(bank, chosen, route, items)
  {
    var mixed := Shuffle(Filter(bank, chosen));
    items := mixed[..Min(route.Total(), |mixed|)];
    CutSingle(bank, chosen, route, mixed, |items|);
  }

  /** The selection of both routes once the request has been accepted. */
  method Select(bank: seq<Item>, chosen: Option<string>, route: Route) returns (items: seq<Item>)
    ensures IsSelection(bank, chosen, route, items)
  {
    if chosen == Some(Both) {
      items := SelectBoth(bank, route);
    } else {
      items := SelectOne(bank, chosen, route);
    }
  }

  // ---------------------------------------------------------------------------
  // The routes
  // ---------------------------------------------------------------------------

  /** `quiz_freemium` and `flashcard_freemium`: the id is checked before the plan is looked
      at, the plan before the bank, and only then is anything selected. `plan` is what the
      plan lookup answers for the id, and `bank` what the JSON file holds (empty when it
      cannot be read). */
  method Serve(route: Route, req: Request, plan: string, bank: seq<Item>) returns (r: Response)
    ensures r == Rejected(400, IdRequired) <==> req.idAluno.None? || |req.idAluno.value| == 0
    ensures r == Rejected(403, WrongPlan) <==>
              req.idAluno.Some? && |req.idAluno.value| > 0 && plan != FreePlan
    ensures r == Rejected(500, route.LoadError()) <==>
              req.idAluno.Some? && |req.idAluno.value| > 0 && plan == FreePlan && |bank| == 0
    ensures r.Served? <==>
              req.idAluno.Some? && |req.idAluno.value| > 0 && plan == FreePlan && |bank| > 0
    ensures r.Served? ==> IsSelection(bank, ChosenCategory(req), route, r.items)
  {
    if req.idAluno.None? || |req.idAluno.value| == 0 {
      return Rejected(400, IdRequired);
    }
    if plan != FreePlan {
      return Rejected(403, WrongPlan);
    }
    if |bank| == 0 {
      return Rejected(500, route.LoadError());
    }
    var items := Select(bank, ChosenCategory(req), route);
    r := Served(items);
  }
}

=== FILE: key_manager.dfy ===
/** The API-key pool manager: an ordered, persisted pool of credentials for a rate-limited
    text-generation service, with a "current" key, rotation on failure, a three-strike
    quarantine of 24 hours and lazy reactivation when a quarantine has expired.

    Time is an integer count of seconds (`now`), passed to every operation that reads the
    clock. The JSON document on disk is modelled by the `saved` field of the manager: the
    store as it was last written. */
module KeyManager {
  import opened Wrappers
  import opened Text

  /** Length of a quarantine: `timedelta(hours=24)` in seconds. */
  const BlockSeconds: int := 86400

  /** Number of failures after which a key is quarantined. */
  const StrikeLimit: int := 3

  /** One registered key with its health record (an element of the document's `keys` list). */
  datatype KeyEntry = KeyEntry(
    name: string,
    key: string,
    active: bool,
    errorCount: int,
    lastError: Option<int>,
    blockedUntil: Option<int>)

  /** The persisted document: the ordered keys and the time of the last successful rotation. */
  datatype KeyStore = KeyStore(keys: seq<KeyEntry>, lastRotation: Option<int>)

  /** The in-memory manager. `index` is not persisted and starts at 0; `saved` is the
      document as last written to disk; `configured` is the key the generation client
      was last configured with (`None` before any configuration). */
  datatype Manager = Manager(data: KeyStore, index: nat, saved: KeyStore, configured: Option<string>)

  /** The class invariant: the current index points into a non-empty pool and is 0 otherwise. */
  predicate Valid(m: Manager) {
    if |m.data.keys| == 0 then m.index == 0 else m.index < |m.data.keys|
  }

  const EmptyStore: KeyStore := KeyStore([], None)

  /** Construction: load the document (`file`), or create and save an empty one when it is
      absent; configure the client with the first key when there is one. */
  function Init(file: Option<KeyStore>): (m: Manager)
    ensures Valid(m) && m.index == 0 && m.saved == m.data
    ensures file.Some? ==> m.data == file.value
    ensures file.None? ==> m.data.keys == [] && m.data.lastRotation == None
    ensures m.configured.Some? <==> |m.data.keys| > 0
    ensures |m.data.keys| > 0 ==> m.configured == Some(m.data.keys[0].key)
  {
    var data := if file.Some? then file.value else EmptyStore;
    Manager(data, 0, data, if |data.keys| > 0 then Some(data.keys[0].key) else None)
  }

  /** A freshly registered key: active, no errors, never failed, not quarantined. */
  predicate IsFresh(e: KeyEntry) {
    e.active && e.errorCount == 0 && e.lastError.None? && e.blockedUntil.None?
  }

  /** The name `add_key` gives a key registered without one, for a pool of `count` keys. */
  function DefaultName(count: nat): string {
    "key_" + NatToString(count + 1)
  }

  /** `add_key`: append one fresh entry at the end of the pool and save. */
  function AddKey(m: Manager, apiKey: string, name: Option<string>): (r: Manager)
    ensures |r.data.keys| == |m.data.keys| + 1
    ensures r.data.keys[..|m.data.keys|] == m.data.keys
    ensures IsFresh(r.data.keys[|m.data.keys|]) && r.data.keys[|m.data.keys|].key == apiKey
    ensures r.data.keys[|m.data.keys|].name
         == (if name.Some? then name.value else DefaultName(|m.data.keys|))
    ensures r.saved == r.data && r.data.lastRotation == m.data.lastRotation
    ensures r.index == m.index && r.configured == m.configured
    ensures Valid(m) ==> Valid(r)
  {
    var entryName := if name.None? then DefaultName(|m.data.keys|) else name.value;
    var entry := KeyEntry(entryName, apiKey, true, 0, None, None);
    var data := m.data.(keys := m.data.keys + [entry]);
    m.(data := data, saved := data)
  }

  datatype ManagerError = NoKeysConfigured

  /** `get_current_key`: the entry at the current index; an empty pool is an error. */
  function GetCurrentKey(m: Manager): (r: Result<KeyEntry, ManagerError>)
    requires Valid(m)
    ensures r.Err? <==> |m.data.keys| == 0
    ensures r.Ok? ==> r.value in m.data.keys && r.value == m.data.keys[m.index]
  {
    if |m.data.keys| == 0 then Err(NoKeysConfigured) else Ok(m.data.keys[m.index])
  }

  // ---------------------------------------------------------------------------
  // Availability and strikes
  // ---------------------------------------------------------------------------

  /** An inactive entry whose quarantine ended strictly before `now`. */
  predicate Expired(e: KeyEntry, now: int) {
    !e.active && e.blockedUntil.Some? && now > e.blockedUntil.value
  }

  /** What `_is_key_available` answers. */
  predicate IsAvailable(e: KeyEntry, now: int) {
    e.active || Expired(e, now)
  }

  /** `_is_key_available`: the answer, and the entry as the availability test leaves it (it reactivates
      an expired entry in place). */
  function Availability(e: KeyEntry, now: int): (r: (bool, KeyEntry))
    ensures r.0 <==> IsAvailable(e, now)
    ensures !Expired(e, now) ==> r.1 == e
    ensures Expired(e, now) ==>
      && r.1.active && r.1.errorCount == 0 && r.1.blockedUntil.None?
      && r.1.name == e.name && r.1.key == e.key && r.1.lastError == e.lastError
  {
    if !e.active then
      if e.blockedUntil.Some? && now > e.blockedUntil.value then
        (true, e.(active := true, errorCount := 0, blockedUntil := None))
      else
        (false, e)
    else
      (true, e)
  }

  /** The failure bookkeeping `rotate_key` applies to the current entry: one more error,
      stamped `now`, and a 24-hour quarantine once the count reaches three. */
  function Strike(e: KeyEntry, now: int): (r: KeyEntry)
    ensures r.name == e.name && r.key == e.key
    ensures r.errorCount == e.errorCount + 1 && r.lastError == Some(now)
    ensures r.errorCount >= StrikeLimit ==> !r.active && r.blockedUntil == Some(now + BlockSeconds)
    ensures r.errorCount < StrikeLimit ==> r.active == e.active && r.blockedUntil == e.blockedUntil
  {
    var counted := e.(errorCount := e.errorCount + 1, lastError := Some(now));
    if counted.errorCount >= StrikeLimit then
      counted.(blockedUntil := Some(now + BlockSeconds), active := false)
    else
      counted
  }

  /** The pool after the current entry took its strike. */
  function Struck(m: Manager, now: int): (keys: seq<KeyEntry>)
    requires Valid(m) && |m.data.keys| > 0
    ensures |keys| == |m.data.keys|
    ensures keys[m.index] == Strike(m.data.keys[m.index], now)
    ensures forall i :: 0 <= i < |keys| && i != m.index ==> keys[i] == m.data.keys[i]
  {
    m.data.keys[m.index := Strike(m.data.keys[m.index], now)]
  }

  // ---------------------------------------------------------------------------
  // The circular scan
  // ---------------------------------------------------------------------------

  /** The candidate the scan inspects on its `k`-th step, starting from index `orig`. */
  function CandidateIndex(n: nat, orig: nat, k: nat): (j: nat)
    requires n > 0
    ensures j < n
  {
    (orig + k) % n
  }

  /** The scan reaches its starting index again exactly on its last step. */
  lemma CandidateIsStartOnlyAtLap(n: nat, orig: nat, k: nat)
    requires orig < n && 1 <= k <= n
    ensures CandidateIndex(n, orig, k) == orig <==> k == n
    ensures orig + k < n ==> CandidateIndex(n, orig, k) == orig + k
  {
    if orig + k < n {
      ModOfBelow(orig + k, n);
    } else {
      ModOfSecondLap(orig + k, n);
    }
  }

  /** `%` leaves a number below the divisor alone. */
  lemma ModOfBelow(a: nat, n: nat)
    requires a < n
    ensures a % n == a
  {
  }

  /** `%` takes one lap off a number below twice the divisor. */
  lemma ModOfSecondLap(a: nat, n: nat)
    requires n <= a < 2 * n
    ensures a % n == a - n
  {
    var q, r := a / n, a % n;
    assert a == n * q + r && 0 <= r < n;
  }

  predicate AvailableAt(keys: seq<KeyEntry>, orig: nat, k: nat, now: int)
    requires |keys| > 0
  {
    IsAvailable(keys[CandidateIndex(|keys|, orig, k)], now)
  }

  /** Step `k` (1-based, at most one lap) is the first step whose candidate is available. */
  ghost predicate IsFirstAvailable(keys: seq<KeyEntry>, orig: nat, k: nat, now: int)
    requires |keys| > 0
  {
    && 1 <= k <= |keys|
    && AvailableAt(keys, orig, k, now)
    && forall j :: 1 <= j < k ==> !AvailableAt(keys, orig, j, now)
  }

  /** The loop of `rotate_key` from step `step` on: the first step in `step..|keys|` whose
      candidate is available, if any. */
  function FirstAvailable(keys: seq<KeyEntry>, orig: nat, step: nat, now: int): (r: Option<nat>)
    requires |keys| > 0 && 1 <= step <= |keys| + 1
    ensures r.Some? ==>
      && step <= r.value <= |keys|
      && AvailableAt(keys, orig, r.value, now)
      && forall j :: step <= j < r.value ==> !AvailableAt(keys, orig, j, now)
    ensures r.None? ==> forall j :: step <= j <= |keys| ==> !AvailableAt(keys, orig, j, now)
    decreases |keys| + 1 - step
  {
    if step > |keys| then None
    else if AvailableAt(keys, orig, step, now) then Some(step)
    else FirstAvailable(keys, orig, step + 1, now)
  }

  // ---------------------------------------------------------------------------
  // Rotation
  // ---------------------------------------------------------------------------

  /** The outcome of `rotate_key`: whether it found a key, and the manager afterwards. */
  datatype Rotation = Rotation(rotated: bool, mgr: Manager)

  /** `rotate_key`. With at most one key it does nothing. Otherwise it strikes the current
      entry, then walks the pool circularly from the next index for one lap; the first
      available candidate (reactivated if its quarantine expired) becomes current, the
      rotation time is recorded, the document is saved and the client reconfigured. When no
      candidate is available the index is back where it started and nothing is saved. */
  function Rotate(m: Manager, now: int): (r: Rotation)
    requires Valid(m)
    ensures Valid(r.mgr) && |r.mgr.data.keys| == |m.data.keys|
    ensures |m.data.keys| <= 1 ==> r == Rotation(false, m)
    ensures |m.data.keys| >= 2 ==>
      (r.rotated <==> exists k :: 1 <= k <= |m.data.keys| && AvailableAt(Struck(m, now), m.index, k, now))
    ensures |m.data.keys| >= 2 && !r.rotated ==> r.mgr == m.(data := m.data.(keys := Struck(m, now)))
    ensures r.rotated ==>
      && r.mgr.data.keys[r.mgr.index].active
      && r.mgr.data.lastRotation == Some(now)
      && r.mgr.saved == r.mgr.data
      && r.mgr.configured == Some(r.mgr.data.keys[r.mgr.index].key)
  {
    var n := |m.data.keys|;
    if n <= 1 then Rotation(false, m)
    else
      var struck := Struck(m, now);
      match FirstAvailable(struck, m.index, 1, now)
      case None => Rotation(false, m.(data := m.data.(keys := struck)))
      case Some(k) =>
        var j := CandidateIndex(n, m.index, k);
        var keys := struck[j := Availability(struck[j], now).1];
        var data := KeyStore(keys, Some(now));
        Rotation(true, Manager(data, j, data, Some(keys[j].key)))
  }

  /** Which key a successful rotation selects: the candidate of the first step of the lap
      that finds an available key, reactivated if its quarantine expired; every other
      entry is as the strike left it. */
  lemma RotateSelectsFirstAvailable(m: Manager, now: int)
    requires Valid(m) && Rotate(m, now).rotated
    ensures |m.data.keys| >= 2
    ensures var r := Rotate(m, now);
      var struck := Struck(m, now);
      && (exists k :: IsFirstAvailable(struck, m.index, k, now)
                      && r.mgr.index == CandidateIndex(|m.data.keys|, m.index, k))
      && r.mgr.data.keys[r.mgr.index] == Availability(struck[r.mgr.index], now).1
      && forall i :: 0 <= i < |m.data.keys| && i != r.mgr.index ==> r.mgr.data.keys[i] == struck[i]
  {
    var struck := Struck(m, now);
    var k :| FirstAvailable(struck, m.index, 1, now) == Some(k);
    assert IsFirstAvailable(struck, m.index, k, now);
  }

  // ---------------------------------------------------------------------------
  // Error classification
  // ---------------------------------------------------------------------------

  /** The lower-case markers of a quota or rate-limit error. */
  const QuotaMarkers: seq<string> :=
    ["quota", "rate limit", "too many requests", "resource exhausted", "429", "daily limit exceeded"]

  /** The error text, lower-cased, contains one of the markers. */
  ghost predicate IsQuotaError(message: string) {
    exists i :: 0 <= i < |QuotaMarkers| && Contains(Lower(message), QuotaMarkers[i])
  }

  /** `any(err in text for err in markers)` over the markers from position `from` on. */
  function AnyMarkerIn(text: string, from: nat): (r: bool)
    requires from <= |QuotaMarkers|
    ensures r <==> exists i :: from <= i < |QuotaMarkers| && Contains(text, QuotaMarkers[i])
    decreases |QuotaMarkers| - from
  {
    if from == |QuotaMarkers| then false
    else IsSubstring(QuotaMarkers[from], text) || AnyMarkerIn(text, from + 1)
  }

  /** The classification inside `handle_api_error`. */
  function ShouldRotate(message: string): (r: bool)
    ensures r <==> IsQuotaError(message)
  {
    AnyMarkerIn(Lower(message), 0)
  }

  /** `handle_api_error`: rotate on a quota error and report the rotation's result;
      any other error leaves the manager untouched and reports no rotation. */
  function HandleApiError(m: Manager, message: string, now: int): (r: Rotation)
    requires Valid(m)
    ensures Valid(r.mgr)
    ensures IsQuotaError(message) ==> r == Rotate(m, now)
    ensures !IsQuotaError(message) ==> r == Rotation(false, m)
    ensures r.rotated ==> IsQuotaError(message) && |m.data.keys| >= 2
  {
    if ShouldRotate(message) then Rotate(m, now) else Rotation(false, m)
  }

  // ---------------------------------------------------------------------------
  // Manual reset
  // ---------------------------------------------------------------------------

  /** `i` is the position of the first entry named `name`. */
  ghost predicate IsFirstNamed(keys: seq<KeyEntry>, name: string, i: int) {
    0 <= i < |keys| && keys[i].name == name && forall j :: 0 <= j < i ==> keys[j].name != name
  }

  /** The position of the first entry named `name`, if any. */
  function FirstNamed(keys: seq<KeyEntry>, name: string): (r: Option<nat>)
    ensures r.None? <==> forall i :: 0 <= i < |keys| ==> keys[i].name != name
    ensures r.Some? ==> IsFirstNamed(keys, name, r.value)
  {
    if |keys| == 0 then None
    else if keys[0].name == name then Some(0)
    else match FirstNamed(keys[1..], name)
      case None => None
      case Some(i) => Some(i + 1)
  }

  /** `e` is `before` with its health record cleared: active, no errors, no failure time,
      no quarantine. */
  predicate IsCleared(e: KeyEntry, before: KeyEntry) {
    e == KeyEntry(before.name, before.key, true, 0, None, None)
  }

  /** `reset_key_errors`: clear the health record of the first entry with that name and save. */
  function ResetKeyErrors(m: Manager, name: string): (r: (bool, Manager))
    ensures r.0 <==> exists i :: 0 <= i < |m.data.keys| && m.data.keys[i].name == name
    ensures !r.0 ==> r.1 == m
    ensures r.0 ==>
      && |r.1.data.keys| == |m.data.keys|
      && (exists i :: IsFirstNamed(m.data.keys, name, i)
            && IsCleared(r.1.data.keys[i], m.data.keys[i])
            && forall j :: 0 <= j < |m.data.keys| && j != i ==> r.1.data.keys[j] == m.data.keys[j])
      && r.1.saved == r.1.data
      && r.1.data.lastRotation == m.data.lastRotation
      && r.1.index == m.index && r.1.configured == m.configured
    ensures Valid(m) ==> Valid(r.1)
  {
    match FirstNamed(m.data.keys, name)
    case None => (false, m)
    case Some(i) =>
      var e := m.data.keys[i];
      var data := m.data.(keys := m.data.keys[i := KeyEntry(e.name, e.key, true, 0, None, None)]);
      (true, m.(data := data, saved := data))
  }
}

=== FILE: retry.dfy ===
/** `generate_with_retry`: one text generation against the external service, retried a
    bounded number of times, with the key manager deciding after each failure whether the
    key rotates.

    The service (the SDK's model object and its `generate_content` call) is an abstract
    oracle: given the key the client is configured with and the attempt number, it either
    answers with text or fails with an error message. The clock is an abstract function
    from the attempt number to the time at which that attempt's failure is handled. */
module Retry {
  import opened Wrappers
  import opened KeyManager

  /** One answer of the external service. */
  datatype Reply = Text(text: string) | Failure(message: string)

  /** What became of one attempt. */
  datatype Outcome =
    | Succeeded(text: string)
    | FailedRotated(message: string)      // the manager rotated to another key
    | FailedNotRotated(message: string)   // not a quota error, or no key to rotate to

  /** One attempt: the key the client was configured with when it called, and the outcome. */
  datatype Attempt = Attempt(key: Option<string>, outcome: Outcome)

  /** The result `generate_with_retry` hands back: the text, `None`, or the re-raised error. */
  datatype Generation = Generated(text: string) | NoText | Raised(message: string)

  /** The recorded attempt `a`, made as call number `i`, agrees with what the service answered. */
  predicate Answered(a: Attempt, service: (Option<string>, nat) -> Reply, i: nat) {
    match a.outcome
    case Succeeded(t) => service(a.key, i) == Text(t)
    case FailedRotated(msg) => service(a.key, i) == Failure(msg)
    case FailedNotRotated(msg) => service(a.key, i) == Failure(msg)
  }

  function Last<T>(s: seq<T>): T
    requires |s| > 0
  {
    s[|s| - 1]
  }

  /** `handle_api_error` as the retry loop sees it: the pool stays well formed, a rotation
      happens only on a quota error, and without one the client keeps its key. */
  method HandleFailure(m: Manager, message: string, now: int) returns (h: Rotation)
    requires Valid(m)
    ensures h == HandleApiError(m, message, now)
    ensures Valid(h.mgr)
    ensures h.rotated ==> IsQuotaError(message) && h.mgr.configured.Some?
    ensures !h.rotated ==> h.mgr.configured == m.configured && h.mgr.index == m.index
  {
    h := HandleApiError(m, message, now);
  }

  /** What every trace of the retry loop satisfies: each attempt is a call to the service
      with the key the client is configured with, the first with the key configured on
      entry; a failure without rotation is retried with the same key; a rotation only
      follows a quota error. */
  ghost predicate WellFormedTrace(trace: seq<Attempt>, service: (Option<string>, nat) -> Reply, first: Option<string>) {
    && (forall i :: 0 <= i < |trace| ==> Answered(trace[i], service, i))
    && (|trace| > 0 ==> trace[0].key == first)
    && (forall i :: 0 <= i < |trace| - 1 && trace[i].outcome.FailedNotRotated? ==>
          trace[i + 1].key == trace[i].key)
    && (forall i :: 0 <= i < |trace| && trace[i].outcome.FailedRotated? ==>
          IsQuotaError(trace[i].outcome.message))
  }

  /** The manager `s` becomes `s'` through attempt `a`, handled at time `now`: a success
      leaves it alone, and a failure goes through `handle_api_error`, whose verdict on
      rotating is the one the attempt records. */
  ghost predicate Follows(s: Manager, a: Attempt, now: int, s': Manager) {
    && Valid(s)
    && match a.outcome
       case Succeeded(_) => s' == s
       case FailedRotated(msg) => HandleApiError(s, msg, now) == Rotation(true, s')
       case FailedNotRotated(msg) => HandleApiError(s, msg, now) == Rotation(false, s')
  }

  /** `mgrs[i]` is the manager before attempt `i` (and `mgrs[|trace|]` the one after the
      last): each attempt is made with the key its manager has configured, and each step
      from one manager to the next is the attempt's own. */
  ghost predicate Replays(trace: seq<Attempt>, mgrs: seq<Manager>, clock: nat -> int) {
    && |mgrs| == |trace| + 1
    && (forall i :: 0 <= i < |trace| ==> trace[i].key == mgrs[i].configured)
    && (forall i :: 0 <= i < |trace| ==> Follows(mgrs[i], trace[i], clock(i), mgrs[i + 1]))
  }

  /** Extending a replay by one attempt and the manager it leaves behind. */
  lemma AppendReplay(trace: seq<Attempt>, mgrs: seq<Manager>, a: Attempt, s': Manager, clock: nat -> int)
    requires Replays(trace, mgrs, clock)
    requires a.key == Last(mgrs).configured
    requires Follows(Last(mgrs), a, clock(|trace|), s')
    ensures Replays(trace + [a], mgrs + [s'], clock)
    ensures (mgrs + [s'])[0] == mgrs[0] && Last(mgrs + [s']) == s'
  {
    var t, ms := trace + [a], mgrs + [s'];
    assert forall i :: 0 <= i < |trace| ==> t[i] == trace[i];
    assert forall i :: 0 <= i < |mgrs| ==> ms[i] == mgrs[i];
  }

  /** The failure branch of the loop: the manager `m`, the last of `mgrs`, handles the
      error at time `now`, and the attempt made with `key` is recorded with its verdict. */
  method RecordFailure(
    m: Manager, key: Option<string>, message: string, now: int,
    ghost trace: seq<Attempt>, ghost mgrs: seq<Manager>, ghost clock: nat -> int)
    returns (h: Rotation, a: Attempt)
    requires Valid(m) && key == m.configured
    requires Replays(trace, mgrs, clock) && Last(mgrs) == m && now == clock(|trace|)
    ensures a == Attempt(key, if h.rotated then FailedRotated(message) else FailedNotRotated(message))
    ensures Valid(h.mgr)
    ensures h.rotated ==> IsQuotaError(message) && h.mgr.configured.Some?
    ensures !h.rotated ==> h.mgr.configured == m.configured && h.mgr.index == m.index
    ensures Replays(trace + [a], mgrs + [h.mgr], clock)
    ensures (mgrs + [h.mgr])[0] == mgrs[0] && Last(mgrs + [h.mgr]) == h.mgr
  {
    h := HandleFailure(m, message, now);
    a := Attempt(key, if h.rotated then FailedRotated(message) else FailedNotRotated(message));
    AppendReplay(trace, mgrs, a, h.mgr, clock);
  }

  /** Appending one attempt that fits the rules keeps a trace well formed. */
  lemma AppendAttempt(
    trace: seq<Attempt>, a: Attempt, service: (Option<string>, nat) -> Reply, first: Option<string>)
    requires WellFormedTrace(trace, service, first)
    requires Answered(a, service, |trace|)
    requires |trace| == 0 ==> a.key == first
    requires |trace| > 0 && Last(trace).outcome.FailedNotRotated? ==> a.key == Last(trace).key
    requires a.outcome.FailedRotated? ==> IsQuotaError(a.outcome.message)
    ensures WellFormedTrace(trace + [a], service, first)
  {
    var t := trace + [a];
    assert forall i :: 0 <= i < |trace| ==> t[i] == trace[i];
  }

  /** The retry loop. `trace` lists the attempts in order (the log lines `generate_with_retry` prints). */
  method GenerateWithRetry(
    m: Manager, maxRetries: int, service: (Option<string>, nat) -> Reply, clock: nat -> int)
    returns (result: Generation, m': Manager, trace: seq<Attempt>, mgrs: seq<Manager>)
    requires Valid(m)
    ensures Valid(m')
    // The managers the attempts were made under, from `m` to `m'`.
    ensures Replays(trace, mgrs, clock) && mgrs[0] == m && Last(mgrs) == m'
    // At most `maxRetries` attempts; none at all when `maxRetries <= 0`.
    ensures maxRetries <= 0 ==> result == NoText && m' == m && trace == []
    ensures maxRetries > 0 ==> 1 <= |trace| <= maxRetries
    ensures WellFormedTrace(trace, service, m.configured)
    // Only the last attempt can succeed; the loop stops early only on a success.
    ensures forall i :: 0 <= i < |trace| - 1 ==> !trace[i].outcome.Succeeded?
    ensures 0 < |trace| < maxRetries ==> Last(trace).outcome.Succeeded?
    // The three ways out.
    ensures result.Generated? <==> |trace| > 0 && Last(trace).outcome.Succeeded?
    ensures result.Generated? ==> Last(trace).outcome == Succeeded(result.text)
    ensures result.Raised? ==>
              |trace| == maxRetries && Last(trace).outcome == FailedNotRotated(result.message)
    ensures result.NoText? ==>
              maxRetries <= 0 || (|trace| == maxRetries && Last(trace).outcome.FailedRotated?)
  {
    m' := m;
    trace := [];
    mgrs := [m];
    result := NoText;
    var attempt: nat := 0;
    while attempt < maxRetries
      invariant Valid(m')
      invariant |trace| == attempt && (if maxRetries > 0 then attempt <= maxRetries else attempt == 0)
      invariant WellFormedTrace(trace, service, m.configured)
      invariant Replays(trace, mgrs, clock) && mgrs[0] == m && Last(mgrs) == m'
      invariant attempt == 0 ==> m' == m && m'.configured == m.configured
      invariant forall i :: 0 <= i < |trace| ==> !trace[i].outcome.Succeeded?
      invariant |trace| > 0 && Last(trace).outcome.FailedNotRotated? ==>
                  m'.configured == Last(trace).key && attempt < maxRetries
    {
      var key := m'.configured;
      var reply := service(key, attempt);
      if reply.Text? {
        var a := Attempt(key, Succeeded(reply.text));
        AppendAttempt(trace, a, service, m.configured);
        AppendReplay(trace, mgrs, a, m', clock);
        trace, mgrs := trace + [a], mgrs + [m'];
        result := Generated(reply.text);
        return;
      }
      var handled, a := RecordFailure(m', key, reply.message, clock(attempt), trace, mgrs, clock);
      AppendAttempt(trace, a, service, m.configured);
      m' := handled.mgr;
      trace, mgrs := trace + [a], mgrs + [m'];
      if !handled.rotated && attempt == maxRetries - 1 {
        result := Raised(reply.message);
        return;
      }
      attempt := attempt + 1;
    }
  }
}

=== FILE: rotation_properties.dfy ===
/** Properties of `rotate_key` over one call and over a run of successive calls. */
module RotationProperties {
  import opened Wrappers
  import opened KeyManager

  /** A candidate that is available on the first step is the one the scan picks. */
  lemma FirstStepWins(keys: seq<KeyEntry>, orig: nat, k: nat, now: int)
    requires |keys| > 0 && AvailableAt(keys, orig, 1, now)
    requires IsFirstAvailable(keys, orig, k, now)
    ensures k == 1
  {
  }

  /** The third strike quarantines the current key for 24 hours, and a successful rotation
      then never lands back on it. */
  lemma {:induction false} ThirdStrikeQuarantines(m: Manager, now: int)
    requires Valid(m) && |m.data.keys| >= 2
    requires m.data.keys[m.index].errorCount == StrikeLimit - 1
    ensures var r := Rotate(m, now);
      && r.mgr.data.keys[m.index].errorCount == StrikeLimit
      && !r.mgr.data.keys[m.index].active
      && r.mgr.data.keys[m.index].blockedUntil == Some(now + BlockSeconds)
      && r.mgr.data.keys[m.index].lastError == Some(now)
      && (r.rotated ==> r.mgr.index != m.index)
  {
    var r := Rotate(m, now);
    var n := |m.data.keys|;
    var struck := Struck(m, now);
    assert !IsAvailable(struck[m.index], now);
    if r.rotated {
      RotateSelectsFirstAvailable(m, now);
      var k :| IsFirstAvailable(struck, m.index, k, now) && r.mgr.index == CandidateIndex(n, m.index, k);
      CandidateIsStartOnlyAtLap(n, m.index, k);
      assert k != n;
    }
  }

  /** Below the threshold a strike keeps the key's state: a second failure leaves an active
      key active, with two errors on record. */
  lemma SecondStrikeKeepsActive(m: Manager, now: int)
    requires Valid(m) && |m.data.keys| >= 2
    requires m.data.keys[m.index].active && m.data.keys[m.index].errorCount == 1
    ensures var r := Rotate(m, now);
      && r.mgr.data.keys[m.index].active
      && r.mgr.data.keys[m.index].errorCount == 2
      && r.mgr.data.keys[m.index].blockedUntil == m.data.keys[m.index].blockedUntil
  {
    var r := Rotate(m, now);
    var struck := Struck(m, now);
    assert struck[m.index].active;
    if r.rotated {
      RotateSelectsFirstAvailable(m, now);
    }
  }

  /** A quarantined key whose block has expired and that comes next in circular order is
      picked and reactivated by the rotation, keeping its last failure time. */
  lemma {:induction false} ExpiredNextIsReactivated(m: Manager, now: int)
    requires Valid(m) && |m.data.keys| >= 2
    requires Expired(m.data.keys[CandidateIndex(|m.data.keys|, m.index, 1)], now)
    ensures var r := Rotate(m, now);
      var next := CandidateIndex(|m.data.keys|, m.index, 1);
      && r.rotated
      && r.mgr.index == next
      && r.mgr.data.keys[next].active
      && r.mgr.data.keys[next].errorCount == 0
      && r.mgr.data.keys[next].blockedUntil.None?
      && r.mgr.data.keys[next].lastError == m.data.keys[next].lastError
  {
    var n := |m.data.keys|;
    var r := Rotate(m, now);
    var struck := Struck(m, now);
    var next := CandidateIndex(n, m.index, 1);
    CandidateIsStartOnlyAtLap(n, m.index, 1);
    assert AvailableAt(struck, m.index, 1, now);
    RotateSelectsFirstAvailable(m, now);
    var k :| IsFirstAvailable(struck, m.index, k, now) && r.mgr.index == CandidateIndex(n, m.index, k);
    FirstStepWins(struck, m.index, k, now);
  }

  /** When every other key is unavailable and the current key survives its strike, the
      scan comes all the way round and the rotation "succeeds" onto the same key. */
  lemma {:induction false} LapBackToCurrent(m: Manager, now: int)
    requires Valid(m) && |m.data.keys| >= 2
    requires m.data.keys[m.index].active && m.data.keys[m.index].errorCount < StrikeLimit - 1
    requires forall i :: 0 <= i < |m.data.keys| && i != m.index ==> !IsAvailable(m.data.keys[i], now)
    ensures Rotate(m, now).rotated && Rotate(m, now).mgr.index == m.index
    ensures Rotate(m, now).mgr.data.keys[m.index].errorCount == m.data.keys[m.index].errorCount + 1
  {
    var n := |m.data.keys|;
    var struck := Struck(m, now);
    CandidateIsStartOnlyAtLap(n, m.index, n);
    assert AvailableAt(struck, m.index, n, now);
    RotateSelectsFirstAvailable(m, now);
    var r := Rotate(m, now);
    var k :| IsFirstAvailable(struck, m.index, k, now) && r.mgr.index == CandidateIndex(n, m.index, k);
    CandidateIsStartOnlyAtLap(n, m.index, k);
  }

  /** A rotation turns at most one inactive key back on, and only the one it selects. */
  lemma AtMostOneReactivation(m: Manager, now: int, i: nat)
    requires Valid(m) && i < |m.data.keys|
    ensures !m.data.keys[i].active && Rotate(m, now).mgr.data.keys[i].active ==>
              && Rotate(m, now).rotated && Rotate(m, now).mgr.index == i
              && Expired(m.data.keys[i], now)
  {
    var r := Rotate(m, now);
    if r.rotated {
      RotateSelectsFirstAvailable(m, now);
    }
  }

  /** A scan that finds nothing keeps the strike in memory only: if the document was in step
      with memory before, it no longer is, and what is on disk is what was there before. */
  lemma FailedRotationIsNotSaved(m: Manager, now: int)
    requires Valid(m) && |m.data.keys| >= 2 && m.saved == m.data
    requires !Rotate(m, now).rotated
    ensures Rotate(m, now).mgr.saved == m.saved
    ensures Rotate(m, now).mgr.saved != Rotate(m, now).mgr.data
    ensures Rotate(m, now).mgr.index == m.index
  {
    var r := Rotate(m, now);
    assert r.mgr.data.keys[m.index].errorCount != m.data.keys[m.index].errorCount;
  }

  /** `t` successive rotations at the same time `now`. */
  function RotateTimes(m: Manager, now: int, t: nat): (r: Manager)
    requires Valid(m)
    ensures Valid(r) && |r.data.keys| == |m.data.keys|
  {
    if t == 0 then m else Rotate(RotateTimes(m, now, t - 1), now).mgr
  }

  /** The pool `m` of active keys with at most one error each, started at index 0. */
  ghost predicate FreshishPool(m: Manager) {
    && Valid(m) && |m.data.keys| >= 2 && m.index == 0
    && forall i :: 0 <= i < |m.data.keys| ==> m.data.keys[i].active && m.data.keys[i].errorCount <= 1
  }

  /** `s` is `m` after the keys before index `t` each failed once and `t` became current. */
  ghost predicate CycledTo(m: Manager, s: Manager, t: nat) {
    && |s.data.keys| == |m.data.keys| && t < |m.data.keys|
    && s.index == t
    && (forall i :: t <= i < |m.data.keys| ==> s.data.keys[i] == m.data.keys[i])
    && (forall i :: 0 <= i < t ==>
          s.data.keys[i].active && s.data.keys[i].errorCount == m.data.keys[i].errorCount + 1)
  }

  /** One more rotation in the cycle of `ActivePoolCycles`. */
  lemma CycleStep(m: Manager, p: Manager, now: int, t: nat)
    requires FreshishPool(m) && 1 <= t <= |m.data.keys| - 1
    requires Valid(p) && CycledTo(m, p, t - 1)
    ensures Rotate(p, now).rotated && CycledTo(m, Rotate(p, now).mgr, t)
  {
    var n := |m.data.keys|;
    assert p.data.keys[t - 1] == m.data.keys[t - 1];
    CandidateIsStartOnlyAtLap(n, t - 1, 1);
    assert p.data.keys[CandidateIndex(n, t - 1, 1)] == m.data.keys[t];
    StepToNext(p, now);
    var s := Rotate(p, now).mgr;
    forall i | t <= i < n
      ensures s.data.keys[i] == m.data.keys[i]
    {
      assert s.data.keys[i] == p.data.keys[i];
    }
    forall i | 0 <= i < t
      ensures s.data.keys[i].active && s.data.keys[i].errorCount == m.data.keys[i].errorCount + 1
    {
      if i < t - 1 {
        assert s.data.keys[i] == p.data.keys[i];
      }
    }
  }

  /** In a pool of active keys with at most one error each, rotating from index 0 visits
      1, 2, ..., n-1 in turn: the `t`-th rotation makes key `t` current, never revisits a
      key, and leaves every visited key active with exactly one more error. */
  lemma {:induction false} ActivePoolCycles(m: Manager, now: int, t: nat)
    requires FreshishPool(m) && t <= |m.data.keys| - 1
    ensures CycledTo(m, RotateTimes(m, now, t), t)
  {
    if t == 0 {
      assert RotateTimes(m, now, t) == m;
    } else {
      var p := RotateTimes(m, now, t - 1);
      ActivePoolCycles(m, now, t - 1);
      CycleStep(m, p, now, t);
      assert RotateTimes(m, now, t) == Rotate(p, now).mgr;
    }
  }

  /** Every rotation of that cycle before the last key finds a key. */
  lemma ActivePoolKeepsRotating(m: Manager, now: int, t: nat)
    requires FreshishPool(m) && t < |m.data.keys| - 1
    ensures RotateTimes(m, now, t).index == t
    ensures Rotate(RotateTimes(m, now, t), now).rotated
  {
    ActivePoolCycles(m, now, t);
    CycleStep(m, RotateTimes(m, now, t), now, t + 1);
  }

  /** One rotation from an active current key with at most one error, when the key after
      it in circular order is active: that key becomes current and only the old current key
      changes, by one more error. */
  lemma StepToNext(s: Manager, now: int)
    requires Valid(s) && |s.data.keys| >= 2
    requires s.data.keys[CandidateIndex(|s.data.keys|, s.index, 1)].active
    ensures var r := Rotate(s, now);
      && r.rotated && r.mgr.index == CandidateIndex(|s.data.keys|, s.index, 1)
      && (s.data.keys[s.index].active && s.data.keys[s.index].errorCount <= 1 ==>
            r.mgr.data.keys[s.index].active)
      && r.mgr.data.keys[s.index].errorCount == s.data.keys[s.index].errorCount + 1
      && forall i :: 0 <= i < |s.data.keys| && i != s.index ==> r.mgr.data.keys[i] == s.data.keys[i]
  {
    var n := |s.data.keys|;
    var r := Rotate(s, now);
    var struck := Struck(s, now);
    CandidateIsStartOnlyAtLap(n, s.index, 1);
    assert AvailableAt(struck, s.index, 1, now);
    RotateSelectsFirstAvailable(s, now);
    var k :| IsFirstAvailable(struck, s.index, k, now) && r.mgr.index == CandidateIndex(n, s.index, k);
    FirstStepWins(struck, s.index, k, now);
  }

  /** Two fresh keys A and B, A current, three quota failures in a row: the failures
      alternate between the two keys, because the first rotation makes B current. All three
      rotations succeed, A ends with two errors and B with one, both still active, and B is
      current. Neither key reaches the quarantine threshold. */
  lemma TwoFreshKeysThreeFailures(a: KeyEntry, b: KeyEntry, now: int)
    requires IsFresh(a) && IsFresh(b)
    ensures var m0 := Init(Some(KeyStore([a, b], None)));
      var r1 := Rotate(m0, now);
      var r2 := Rotate(r1.mgr, now);
      var r3 := Rotate(r2.mgr, now);
      && r1.rotated && r2.rotated && r3.rotated
      && r3.mgr.index == 1
      && r3.mgr.data.keys[0].errorCount == 2 && r3.mgr.data.keys[0].active
      && r3.mgr.data.keys[1].errorCount == 1 && r3.mgr.data.keys[1].active
  {
    var m0 := Init(Some(KeyStore([a, b], None)));
    CandidateIsStartOnlyAtLap(2, 0, 1);
    CandidateIsStartOnlyAtLap(2, 1, 1);
    StepToNext(m0, now);
    var m1 := Rotate(m0, now).mgr;
    StepToNext(m1, now);
    var m2 := Rotate(m1, now).mgr;
    assert m2.index == 0 && m2.data.keys[1].errorCount == 1;
    StepToNext(m2, now);
  }
}

=== FILE: setup_keys.dfy ===
/** The administrative script around the key pool: the first-time setup session, adding a
    single key, removing keys by name and resetting a key's errors.

    Every command builds a fresh manager from the document on disk (`file`, absent when
    the file does not exist yet), so each is modelled as a function from that document and
    the lines typed at the prompts to the command's outcome and the document afterwards.
    Terminal output is not modelled. */
module SetupKeys {
  import opened Wrappers
  import opened Text
  import opened KeyManager

  /** What an administrative command reports. */
  datatype AdminOutcome = NameRequired | KeyRequired | Added | Removed | ResetDone | NotFound

  // ---------------------------------------------------------------------------
  // Removing keys by name
  // ---------------------------------------------------------------------------

  /** `[k for k in keys if k['name'] != name]`. */
  function WithoutName(keys: seq<KeyEntry>, name: string): (r: seq<KeyEntry>)
    ensures |r| <= |keys|
    ensures forall i :: 0 <= i < |r| ==> r[i].name != name
  {
    if |keys| == 0 then []
    else if keys[0].name == name then WithoutName(keys[1..], name)
    else [keys[0]] + WithoutName(keys[1..], name)
  }

  /** Filtering removes every copy of the entries with that name and keeps every copy of the
      others. */
  lemma {:induction false} WithoutNameMultiset(keys: seq<KeyEntry>, name: string)
    ensures forall e :: multiset(WithoutName(keys, name))[e] == if e.name == name then 0 else multiset(keys)[e]
    decreases |keys|
  {
    if |keys| > 0 {
      WithoutNameMultiset(keys[1..], name);
      assert keys == [keys[0]] + keys[1..];
    }
  }

  /** The entries that survive are exactly the ones with another name. */
  lemma WithoutNameMembers(keys: seq<KeyEntry>, name: string)
    ensures forall e :: e in WithoutName(keys, name) <==> e in keys && e.name != name
  {
    var r := WithoutName(keys, name);
    WithoutNameMultiset(keys, name);
    forall e
      ensures e in r <==> e in keys && e.name != name
    {
      assert e in r <==> e in multiset(r);
      assert e in keys <==> e in multiset(keys);
    }
  }

  /** Filtering leaves the pool as long as it was exactly when no entry has that name. */
  lemma {:induction false} WithoutNameShrinks(keys: seq<KeyEntry>, name: string)
    ensures |WithoutName(keys, name)| == |keys| <==> forall i :: 0 <= i < |keys| ==> keys[i].name != name
    decreases |keys|
  {
    if |keys| > 0 {
      WithoutNameShrinks(keys[1..], name);
      assert forall i :: 1 <= i < |keys| ==> keys[i] == keys[1..][i - 1];
    }
  }

  /** Filtering a concatenation filters each part and keeps their order. */
  lemma {:induction false} WithoutNameAppend(a: seq<KeyEntry>, b: seq<KeyEntry>, name: string)
    ensures WithoutName(a + b, name) == WithoutName(a, name) + WithoutName(b, name)
    decreases |a|
  {
    if |a| > 0 {
      assert (a + b)[1..] == a[1..] + b;
      WithoutNameAppend(a[1..], b, name);
    } else {
      assert a + b == b;
    }
  }

  /** `remove_key`: a blank name aborts before the pool is touched; otherwise every entry
      with that name is dropped, and the document is saved only if something was dropped. */
  function RemoveKey(file: Option<KeyStore>, nameLine: string): (r: (AdminOutcome, KeyStore))
    ensures var before := Init(file).saved;
      var name := Strip(nameLine);
      && (AllSpace(nameLine) ==> r == (NameRequired, before))
      && (r.0 == Removed <==>
            !AllSpace(nameLine) && exists i :: 0 <= i < |before.keys| && before.keys[i].name == name)
      && (r.0 == Removed ==>
            && r.1.keys == WithoutName(before.keys, name)
            && |r.1.keys| < |before.keys|
            && r.1.lastRotation == before.lastRotation)
      && (r.0 != Removed ==> r.1 == before)
      // A name that no entry has is reported as not found.
      && (!AllSpace(nameLine) && r.0 != Removed ==> r.0 == NotFound)
      && r.0 in {NameRequired, Removed, NotFound}
  {
    var m := Init(file);
    var name := Strip(nameLine);
    if |name| == 0 then (NameRequired, m.saved)
    else
      var kept := WithoutName(m.data.keys, name);
      WithoutNameShrinks(m.data.keys, name);
      if |kept| < |m.data.keys| then (Removed, m.data.(keys := kept))
      else (NotFound, m.saved)
  }

  // ---------------------------------------------------------------------------
  // Adding one key and resetting one key
  // ---------------------------------------------------------------------------

  /** `add_single_key`: both the name and the key are required (after stripping). */
  function AddSingleKey(file: Option<KeyStore>, nameLine: string, keyLine: string): (r: (AdminOutcome, KeyStore))
    ensures var before := Init(file).saved;
      && (AllSpace(nameLine) ==> r == (NameRequired, before))
      && (!AllSpace(nameLine) && AllSpace(keyLine) ==> r == (KeyRequired, before))
      && (r.0 == Added <==> !AllSpace(nameLine) && !AllSpace(keyLine))
      && (r.0 == Added ==>
            && |r.1.keys| == |before.keys| + 1
            && r.1.keys[..|before.keys|] == before.keys
            && IsFresh(r.1.keys[|before.keys|])
            && r.1.keys[|before.keys|].name == Strip(nameLine)
            && r.1.keys[|before.keys|].key == Strip(keyLine)
            && r.1.lastRotation == before.lastRotation)
  {
    var m := Init(file);
    var name := Strip(nameLine);
    if |name| == 0 then (NameRequired, m.saved)
    else
      var key := Strip(keyLine);
      if |key| == 0 then (KeyRequired, m.saved)
      else (Added, AddKey(m, key, Some(name)).saved)
  }

  /** `reset_key`: a blank name aborts; otherwise `reset_key_errors` on the stripped name. */
  function ResetKey(file: Option<KeyStore>, nameLine: string): (r: (AdminOutcome, KeyStore))
    ensures var before := Init(file).saved;
      var name := Strip(nameLine);
      && (AllSpace(nameLine) ==> r == (NameRequired, before))
      && (r.0 == ResetDone <==>
            !AllSpace(nameLine) && exists i :: 0 <= i < |before.keys| && before.keys[i].name == name)
      && (r.0 == ResetDone ==>
            && |r.1.keys| == |before.keys|
            && exists i ::
                 && IsFirstNamed(before.keys, name, i) && IsCleared(r.1.keys[i], before.keys[i])
                 && forall j :: 0 <= j < |before.keys| && j != i ==> r.1.keys[j] == before.keys[j])
      && (r.0 == ResetDone ==> r.1.lastRotation == before.lastRotation)
      && (!AllSpace(nameLine) && r.0 != ResetDone ==> r.0 == NotFound)
      && (r.0 != ResetDone ==> r.1 == before)
  {
    var m := Init(file);
    var name := Strip(nameLine);
    if |name| == 0 then (NameRequired, m.saved)
    else
      var reset := ResetKeyErrors(m, name);
      (if reset.0 then ResetDone else NotFound, reset.1.saved)
  }

  // ---------------------------------------------------------------------------
  // The first-time setup session
  // ---------------------------------------------------------------------------

  /** How the session loop ended: a name or key typed as `sair`, a "no" to "add another?",
      or the input running out (on which `input()` raises `EOFError`). */
  datatype SessionEnd = Quit | Declined | InputExhausted

  /** The manager when the loop ends and the number of keys it added (`key_count`). */
  datatype Session = Session(mgr: Manager, count: nat, end: SessionEnd)

  /** The name proposed for the `count+1`-th key of the session. */
  function SessionDefaultName(count: nat): string {
    "chave_" + NatToString(count + 1)
  }

  /** The word that ends the session when typed as a name or a key, in any letter case:
      `sair`, `SAIR`, `Sair` and so on. `QuitWordIsLowerSair` shows this is the test
      `s.lower() == 'sair'`. */
  predicate IsQuitWord(s: string) {
    && |s| == 4
    && (s[0] == 's' || s[0] == 'S') && (s[1] == 'a' || s[1] == 'A')
    && (s[2] == 'i' || s[2] == 'I') && (s[3] == 'r' || s[3] == 'R')
  }

  /** The quit test, letter by letter, is the lower-cased comparison. */
  lemma QuitWordIsLowerSair(s: string)
    ensures IsQuitWord(s) <==> Lower(s) == "sair"
  {
    if |s| == 4 {
      LowersTo(s[0], 's');
      LowersTo(s[1], 'a');
      LowersTo(s[2], 'i');
      LowersTo(s[3], 'r');
      assert Lower(s) == [LowerChar(s[0]), LowerChar(s[1]), LowerChar(s[2]), LowerChar(s[3])];
    }
  }

  /** The answers to "add another key?" that keep the loop going, once lower-cased. */
  const ContinueAnswers: seq<string> := ["s", "sim", "y", "yes"]

  /** `s`, `sim`, `y` or `yes` in any letter case, letter by letter;
      `ContinueAnswerIsLower` shows this is `a.lower() in ('s', 'sim', 'y', 'yes')`. */
  predicate IsContinueAnswer(a: string) {
    || (|a| == 1 && (a[0] == 's' || a[0] == 'S'))
    || (|a| == 3 && (a[0] == 's' || a[0] == 'S') && (a[1] == 'i' || a[1] == 'I')
                 && (a[2] == 'm' || a[2] == 'M'))
    || (|a| == 1 && (a[0] == 'y' || a[0] == 'Y'))
    || (|a| == 3 && (a[0] == 'y' || a[0] == 'Y') && (a[1] == 'e' || a[1] == 'E')
                 && (a[2] == 's' || a[2] == 'S'))
  }

  /** The characters that lower-case to the small ASCII letter `x`: itself and its capital. */
  lemma LowersTo(c: char, x: char)
    requires IsAsciiLower(x)
    ensures LowerChar(c) == x <==> c == x || c as int == x as int - 0x20
  {
  }

  /** The continue test, letter by letter, is the lower-cased membership test. */
  lemma ContinueAnswerIsLower(a: string)
    ensures IsContinueAnswer(a) <==> Lower(a) in ContinueAnswers
  {
    if |a| == 1 {
      OneLetterAnswer(a);
    } else if |a| == 3 {
      ThreeLetterAnswer(a);
    } else {
      assert |Lower(a)| == |a|;
    }
  }

  lemma OneLetterAnswer(a: string)
    requires |a| == 1
    ensures IsContinueAnswer(a) <==> Lower(a) in ContinueAnswers
  {
    LowersTo(a[0], 's');
    LowersTo(a[0], 'y');
    assert Lower(a) == [LowerChar(a[0])];
  }

  lemma ThreeLetterAnswer(a: string)
    requires |a| == 3
    ensures IsContinueAnswer(a) <==> Lower(a) in ContinueAnswers
  {
    LowersTo(a[0], 's');
    LowersTo(a[1], 'i');
    LowersTo(a[2], 'm');
    LowersTo(a[0], 'y');
    LowersTo(a[1], 'e');
    LowersTo(a[2], 's');
    assert Lower(a) == [LowerChar(a[0]), LowerChar(a[1]), LowerChar(a[2])];
  }

  /** The answer to "add another key?", once stripped, keeps the loop going. */
  predicate WantsAnother(line: string) {
    IsContinueAnswer(Strip(line))
  }

  /** What the session accepts as a name or a key: non-blank, with no space at either end
      (so `Strip` leaves it as it is, by `StripOfTrimmed`), not the quit word. */
  predicate AcceptedText(s: string) {
    |s| > 0 && !IsSpace(s[0]) && !IsSpace(s[|s| - 1]) && !IsQuitWord(s)
  }

  /** What the session adds to the pool. */
  predicate AcceptedEntry(e: KeyEntry) {
    IsFresh(e) && AcceptedText(e.name) && AcceptedText(e.key)
  }

  /** The name given at the name prompt of round `count + 1`: the typed line stripped, or
      the default when that is blank. The default is never the quit word, so the name is
      the quit word exactly when the typed line is. */
  function NameAnswer(line: string, count: nat): (name: string)
    ensures |Strip(line)| > 0 ==> name == Strip(line)
    ensures |Strip(line)| == 0 ==> name == SessionDefaultName(count)
    ensures IsQuitWord(name) <==> IsQuitWord(Strip(line))
    ensures !IsQuitWord(name) ==> AcceptedText(name)
  {
    var typed := Strip(line);
    if |typed| == 0 then
      var digits := NatToString(count + 1);
      var d := SessionDefaultName(count);
      assert d[0] == 'c';
      assert d[|d| - 1] == digits[|digits| - 1];
      d
    else
      typed
  }

  /** What one round of prompts decides: stop, go round again without adding, or add a
      key and then either go on (`stop == None`) or stop. */
  datatype Step =
    | Stop(end: SessionEnd)
    | Skip
    | Add(name: string, key: string, stop: Option<SessionEnd>)

  /** One round of the loop: the name prompt, the key prompt and, after an addition, the
      "add another?" prompt. `rest` is the input left for the next round. The quit test on
      the name is made on the typed line, which `NameAnswer` shows is the same test. */
  datatype Round = Round(step: Step, rest: seq<string>)

  function ReadRound(lines: seq<string>, count: nat): (r: Round)
    requires |lines| > 0
    ensures |r.rest| < |lines|
    ensures r.step.Add? ==> AcceptedText(r.step.name) && AcceptedText(r.step.key)
  {
    if IsQuitWord(Strip(lines[0])) then Round(Stop(Quit), [])
    else if |lines| == 1 then Round(Stop(InputExhausted), [])
    else
      var name := NameAnswer(lines[0], count);
      var key := Strip(lines[1]);
      if IsQuitWord(key) then Round(Stop(Quit), [])
      else if |key| == 0 then Round(Skip, lines[2..])
      else
        if |lines| == 2 then Round(Add(name, key, Some(InputExhausted)), [])
        else if !WantsAnother(lines[2]) then Round(Add(name, key, Some(Declined)), [])
        else Round(Add(name, key, None), lines[3..])
  }

  /** What a round decides, case by case: `sair` as the name or the key quits, a blank
      key skips the round, anything else adds the stripped key under the answered name, and
      the session goes on after an addition exactly when the next answer says so. */
  lemma RoundDecides(lines: seq<string>, count: nat)
    requires |lines| > 0
    ensures var r := ReadRound(lines, count);
      && (r.step.Stop? && r.step.end == Quit <==>
            IsQuitWord(Strip(lines[0])) || (|lines| >= 2 && IsQuitWord(Strip(lines[1]))))
      && (r.step.Skip? <==>
            !IsQuitWord(Strip(lines[0])) && |lines| >= 2 && !IsQuitWord(Strip(lines[1]))
            && AllSpace(lines[1]))
      && (r.step.Skip? ==> r.rest == lines[2..])
      // A name and a key that are neither the quit word nor blank add the key.
      && (r.step.Add? <==>
            |lines| >= 2 && !IsQuitWord(Strip(lines[0])) && !IsQuitWord(Strip(lines[1]))
            && !AllSpace(lines[1]))
      && (r.step.Add? ==> r.step.name == NameAnswer(lines[0], count) && r.step.key == Strip(lines[1]))
      // After an addition the session goes on exactly when the next answer says so.
      && (r.step.Add? ==> (r.step.stop.None? <==> |lines| >= 3 && WantsAnother(lines[2])))
      && (r.step.Add? && r.step.stop.None? ==> r.rest == lines[3..])
      && (r.step.Add? && r.step.stop.Some? ==>
            r.step.stop.value == (if |lines| == 2 then InputExhausted else Declined))
  {
  }

  /** The entry the session registers for an accepted name and key. */
  function SessionEntry(name: string, key: string): KeyEntry {
    KeyEntry(name, key, true, 0, None, None)
  }

  /** What a session reading `lines`, with `count` keys already added, goes on to do:
      the entries it adds, in order, and how it ends. Round after round: a stop adds
      nothing more, a skipped round adds nothing, an addition adds its entry and the
      session continues only when the round says so. */
  function SessionPlan(lines: seq<string>, count: nat): (p: (seq<KeyEntry>, SessionEnd))
    decreases |lines|
  {
    if |lines| == 0 then ([], InputExhausted)
    else
      var round := ReadRound(lines, count);
      match round.step
      case Stop(end) => ([], end)
      case Skip => SessionPlan(round.rest, count)
      case Add(name, key, stop) =>
        if stop.Some? then ([SessionEntry(name, key)], stop.value)
        else
          var next := SessionPlan(round.rest, count + 1);
          ([SessionEntry(name, key)] + next.0, next.1)
  }

  /** `mgr` is `m` after the session added `count` keys: the pool grew by exactly those
      keys, at its end and in order, each one accepted; the document was saved after each
      addition; the current key, the client's key and the time of the last rotation did not move. */
  predicate SessionExtends(m: Manager, mgr: Manager, count: nat) {
    && |mgr.data.keys| == |m.data.keys| + count
    && mgr.data.keys[..|m.data.keys|] == m.data.keys
    && (forall i :: |m.data.keys| <= i < |mgr.data.keys| ==> AcceptedEntry(mgr.data.keys[i]))
    && (count == 0 ==> mgr == m)
    && (count > 0 ==> mgr.saved == mgr.data)
    && mgr.index == m.index && mgr.configured == m.configured
    && mgr.data.lastRotation == m.data.lastRotation
  }

  /** One more accepted key extends the session by one. */
  lemma AddExtendsSession(m: Manager, mgr: Manager, count: nat, name: string, key: string)
    requires SessionExtends(m, mgr, count) && AcceptedText(name) && AcceptedText(key)
    ensures SessionExtends(m, AddKey(mgr, key, Some(name)), count + 1)
  {
    var next := AddKey(mgr, key, Some(name));
    assert next.data.keys[..|m.data.keys|] == next.data.keys[..|mgr.data.keys|][..|m.data.keys|];
  }

  /** The entry `add_key` appends for a named key is the session's entry. */
  lemma AddKeyAppendsEntry(mgr: Manager, name: string, key: string)
    ensures AddKey(mgr, key, Some(name)).data.keys == mgr.data.keys + [SessionEntry(name, key)]
  {
    var next := AddKey(mgr, key, Some(name)).data.keys;
    assert next == next[..|mgr.data.keys|] + [next[|mgr.data.keys|]];
  }

  lemma AppendOneThen<T>(a: seq<T>, e: T, b: seq<T>)
    ensures (a + [e]) + b == a + ([e] + b)
  {
  }

  /** `mgr`, after `count` additions, with `rest` still to read, is on course to end where
      `plan` says a session from `m` ends. */
  ghost predicate OnPlan(m: Manager, mgr: Manager, count: nat, rest: seq<string>, plan: (seq<KeyEntry>, SessionEnd)) {
    var ahead := SessionPlan(rest, count);
    && mgr.data.keys + ahead.0 == m.data.keys + plan.0
    && count + |ahead.0| == |plan.0|
    && ahead.1 == plan.1
  }

  /** The session ended with `mgr` after `count` additions, as `plan` says it ends. */
  predicate EndsOnPlan(m: Manager, mgr: Manager, count: nat, end: SessionEnd, plan: (seq<KeyEntry>, SessionEnd)) {
    mgr.data.keys == m.data.keys + plan.0 && count == |plan.0| && end == plan.1
  }

  /** One round keeps the session on course: a stop ends where the plan ends, a skipped
      round changes nothing, and an addition appends the plan's next entry. */
  lemma PlanStep(m: Manager, mgr: Manager, count: nat, rest: seq<string>, plan: (seq<KeyEntry>, SessionEnd))
    requires |rest| > 0 && OnPlan(m, mgr, count, rest, plan)
    ensures var round := ReadRound(rest, count);
      && (round.step.Stop? ==> EndsOnPlan(m, mgr, count, round.step.end, plan))
      && (round.step.Skip? ==> OnPlan(m, mgr, count, round.rest, plan))
      && (round.step.Add? ==>
            var mgr' := AddKey(mgr, round.step.key, Some(round.step.name));
            && (round.step.stop.None? ==> OnPlan(m, mgr', count + 1, round.rest, plan))
            && (round.step.stop.Some? ==> EndsOnPlan(m, mgr', count + 1, round.step.stop.value, plan)))
  {
    var round := ReadRound(rest, count);
    if round.step.Add? {
      var e := SessionEntry(round.step.name, round.step.key);
      AddKeyAppendsEntry(mgr, round.step.name, round.step.key);
      if round.step.stop.None? {
        AppendOneThen(mgr.data.keys, e, SessionPlan(round.rest, count + 1).0);
      }
    }
  }

  /** The parts of `SessionExtends` that do not depend on what was typed. */
  predicate SessionFrame(m: Manager, mgr: Manager, count: nat) {
    && (count == 0 ==> mgr == m)
    && (count > 0 ==> mgr.saved == mgr.data)
    && mgr.index == m.index && mgr.configured == m.configured
    && mgr.data.lastRotation == m.data.lastRotation
  }

  /** Every entry a session plans to add is accepted. */
  lemma {:induction false} PlanIsAccepted(lines: seq<string>, count: nat)
    ensures forall e :: e in SessionPlan(lines, count).0 ==> AcceptedEntry(e)
    decreases |lines|
  {
    if |lines| > 0 {
      var round := ReadRound(lines, count);
      match round.step
      case Stop(_) =>
      case Skip =>
        PlanIsAccepted(round.rest, count);
      case Add(name, key, stop) =>
        PlanIsAccepted(round.rest, count + 1);
    }
  }

  /** A session that ended on its plan, with the frame kept, extends the pool it began with. */
  lemma EndedSessionExtends(m: Manager, mgr: Manager, count: nat, end: SessionEnd, lines: seq<string>)
    requires SessionFrame(m, mgr, count) && EndsOnPlan(m, mgr, count, end, SessionPlan(lines, 0))
    ensures SessionExtends(m, mgr, count)
  {
    var added := SessionPlan(lines, 0).0;
    PlanIsAccepted(lines, 0);
    assert mgr.data.keys[..|m.data.keys|] == m.data.keys;
    forall i | |m.data.keys| <= i < |mgr.data.keys|
      ensures AcceptedEntry(mgr.data.keys[i])
    {
      assert mgr.data.keys[i] == added[i - |m.data.keys|];
    }
  }

  /** One pass of the `while True` loop: read a round from `rest` and act on it. `end` is
      the way out when the round ends the session. */
  method PlayRound(m: Manager, mgr: Manager, count: nat, rest: seq<string>, ghost plan: (seq<KeyEntry>, SessionEnd))
    returns (mgr': Manager, count': nat, rest': seq<string>, end: Option<SessionEnd>)
    requires |rest| > 0 && SessionFrame(m, mgr, count) && OnPlan(m, mgr, count, rest, plan)
    ensures SessionFrame(m, mgr', count')
    ensures end.None? ==> |rest'| < |rest| && OnPlan(m, mgr', count', rest', plan)
    ensures end.Some? ==> EndsOnPlan(m, mgr', count', end.value, plan)
  {
    var round := ReadRound(rest, count);
    PlanStep(m, mgr, count, rest, plan);
    mgr', count', rest', end := mgr, count, round.rest, None;
    if round.step.Stop? {
      end := Some(round.step.end);
    } else if round.step.Add? {
      mgr', count', end := AddKey(mgr, round.step.key, Some(round.step.name)), count + 1, round.step.stop;
    }
  }

  /** The `while True` loop of `setup_keys`, reading prompt answers from `lines`. */
  method SetupLoop(m: Manager, lines: seq<string>) returns (r: Session)
    ensures SessionExtends(m, r.mgr, r.count)
    // The keys added and the way out are the ones the rounds of `lines` call for.
    ensures r.mgr.data.keys == m.data.keys + SessionPlan(lines, 0).0
    ensures r.count == |SessionPlan(lines, 0).0| && r.end == SessionPlan(lines, 0).1
  {
    var mgr := m;
    var count: nat := 0;
    var rest := lines;
    ghost var plan := SessionPlan(lines, 0);
    while |rest| > 0
      invariant SessionFrame(m, mgr, count)
      invariant OnPlan(m, mgr, count, rest, plan)
      decreases |rest|
    {
      var end;
      mgr, count, rest, end := PlayRound(m, mgr, count, rest, plan);
      if end.Some? {
        EndedSessionExtends(m, mgr, count, end.value, lines);
        return Session(mgr, count, end.value);
      }
    }
    EndedSessionExtends(m, mgr, count, InputExhausted, lines);
    r := Session(mgr, count, InputExhausted);
  }

  /** `setup_keys`: the session from a freshly loaded manager with `key_count = 0`. */
  method SetupSession(file: Option<KeyStore>, lines: seq<string>) returns (r: Session)
    ensures SessionExtends(Init(file), r.mgr, r.count)
    ensures r.mgr.data.keys == Init(file).data.keys + SessionPlan(lines, 0).0
    ensures r.count == |SessionPlan(lines, 0).0| && r.end == SessionPlan(lines, 0).1
    ensures r.mgr.saved == r.mgr.data
  {
    r := SetupLoop(Init(file), lines);
  }
}

=== FILE: text.dfy ===
/** Character classes and string helpers on `seq<char>`.

    Python's `str.lower`, `str.upper`, `str.strip` and the regular-expression class `\s`
    follow the full Unicode tables. This module fixes an explicit repertoire instead:
    ASCII plus the Latin-1 Supplement (U+0080..U+00FF). Outside it, characters are
    left unchanged by the case maps and are never whitespace. */
module Text {
  import opened Wrappers

  // ---------------------------------------------------------------------------
  // Character classes
  // ---------------------------------------------------------------------------

  predicate IsAsciiUpper(c: char) { 'A' <= c <= 'Z' }

  predicate IsAsciiLower(c: char) { 'a' <= c <= 'z' }

  predicate IsAsciiLetter(c: char) { IsAsciiUpper(c) || IsAsciiLower(c) }

  predicate IsAsciiDigit(c: char) { '0' <= c <= '9' }

  /** Latin-1 capitals À..Þ, without the multiplication sign × (U+00D7). */
  predicate IsLatin1Upper(c: char) { '\U{00C0}' <= c <= '\U{00DE}' && c != '\U{00D7}' }

  /** Latin-1 small letters à..þ, without the division sign ÷ (U+00F7). */
  predicate IsLatin1Lower(c: char) { '\U{00E0}' <= c <= '\U{00FE}' && c != '\U{00F7}' }

  /** The characters of the repertoire that Python's `str.isspace` and the `\s` class accept:
      space, TAB..CR, the four information separators U+001C..U+001F, NEL and NO-BREAK SPACE. */
  predicate IsSpace(c: char) {
    var x := c as int;
    x == 0x20 || 0x09 <= x <= 0x0D || 0x1C <= x <= 0x1F || x == 0x85 || x == 0xA0
  }

  predicate AllSpace(s: string) {
    forall i :: 0 <= i < |s| ==> IsSpace(s[i])
  }

  // ---------------------------------------------------------------------------
  // Case mapping
  // ---------------------------------------------------------------------------

  /** The ASCII letters, capital and small, in alphabetical order. */
  const AsciiCapitals: string := "ABCDEFGHIJKLMNOPQRSTUVWXYZ"
  const AsciiSmalls: string := "abcdefghijklmnopqrstuvwxyz"

  /** One character of `str.lower` on the repertoire. */
  function LowerChar(c: char): (r: char)
    ensures IsAsciiUpper(c) ==> r == AsciiSmalls[c as int - 'A' as int]
    ensures IsAsciiLower(r) <==> IsAsciiLetter(c) && (IsAsciiLower(c) || IsAsciiUpper(c))
    ensures !IsAsciiUpper(r)
    ensures IsAsciiDigit(r) <==> IsAsciiDigit(c)
    ensures IsSpace(r) <==> IsSpace(c)
    ensures r == ' ' <==> c == ' '
    ensures !IsAsciiUpper(c) && !IsLatin1Upper(c) ==> r == c
  {
    if IsAsciiUpper(c) || IsLatin1Upper(c) then (c as int + 0x20) as char else c
  }

  /** One character of `str.upper` on the repertoire; `ÿ` becomes `Ÿ` (U+0178). The
      capitals of `ß` ("SS") and `µ` (a Greek letter) are outside the model. */
  function UpperChar(c: char): (r: char)
    ensures IsAsciiLower(c) ==> r == AsciiCapitals[c as int - 'a' as int]
    ensures IsAsciiUpper(r) <==> IsAsciiLetter(c)
    ensures IsSpace(r) <==> IsSpace(c)
    ensures r == ' ' <==> c == ' '
  {
    if IsAsciiLower(c) || IsLatin1Lower(c) then (c as int - 0x20) as char
    else if c == '\U{00FF}' then '\U{0178}'
    else c
  }

  function Lower(s: string): (r: string)
    ensures |r| == |s|
    ensures forall i :: 0 <= i < |s| ==> r[i] == LowerChar(s[i])
  {
    seq(|s|, i requires 0 <= i < |s| => LowerChar(s[i]))
  }

  function Upper(s: string): (r: string)
    ensures |r| == |s|
    ensures forall i :: 0 <= i < |s| ==> r[i] == UpperChar(s[i])
  {
    seq(|s|, i requires 0 <= i < |s| => UpperChar(s[i]))
  }

  /** Lower-casing a capital and upper-casing the result gives the capital back, and the
      other way round for a small letter, throughout ASCII and Latin-1 (`ÿ` aside, whose
      capital `Ÿ` lies outside the repertoire). */
  lemma CaseRoundTrip(c: char)
    ensures IsAsciiUpper(c) || IsLatin1Upper(c) ==> UpperChar(LowerChar(c)) == c
    ensures IsAsciiLower(c) || IsLatin1Lower(c) ==> LowerChar(UpperChar(c)) == c
  {
  }

  /** Lower-casing twice is lower-casing once. */
  lemma LowerIdempotent(s: string)
    ensures Lower(Lower(s)) == Lower(s)
  {
    var l := Lower(s);
    assert forall i :: 0 <= i < |s| ==> Lower(l)[i] == LowerChar(LowerChar(s[i])) == l[i];
  }

  /** Upper-casing ignores an earlier lower-casing. */
  lemma UpperOfLower(s: string)
    ensures Upper(Lower(s)) == Upper(s)
  {
    var l := Lower(s);
    assert forall i :: 0 <= i < |s| ==> Upper(l)[i] == UpperChar(LowerChar(s[i])) == UpperChar(s[i]);
  }

  /** A string with no upper-case letter is its own lower-case form. */
  lemma LowerOfNoUpper(s: string)
    requires forall i :: 0 <= i < |s| ==> !IsAsciiUpper(s[i]) && !IsLatin1Upper(s[i])
    ensures Lower(s) == s
  {
  }

  /** Python's `str.capitalize`: first character upper case, the rest lower case. */
  function Capitalize(w: string): (r: string)
    ensures |r| == |w|
    ensures |w| > 0 ==> r[0] == UpperChar(w[0])
    ensures forall i :: 0 < i < |w| ==> r[i] == LowerChar(w[i])
  {
    if |w| == 0 then [] else [UpperChar(w[0])] + Lower(w[1..])
  }

  /** Capitalising twice is capitalising once. */
  lemma CapitalizeIdempotent(w: string)
    ensures Capitalize(Capitalize(w)) == Capitalize(w)
  {
    if |w| > 0 {
      var c := Capitalize(w);
      assert UpperChar(UpperChar(w[0])) == UpperChar(w[0]);
      assert forall i :: 0 < i < |w| ==> Capitalize(c)[i] == LowerChar(LowerChar(w[i])) == c[i];
    }
  }

  // ---------------------------------------------------------------------------
  // Stripping
  // ---------------------------------------------------------------------------

  /** The index of the first non-space character at or after `i` (`|s|` if none). */
  function SkipSpaces(s: string, i: nat): (k: nat)
    requires i <= |s|
    ensures i <= k <= |s|
    ensures forall j :: i <= j < k ==> IsSpace(s[j])
    ensures k < |s| ==> !IsSpace(s[k])
    decreases |s| - i
  {
    if i < |s| && IsSpace(s[i]) then SkipSpaces(s, i + 1) else i
  }

  /** The end of `s[lo..hi]` once its trailing spaces are cut off. */
  function SkipSpacesBack(s: string, lo: nat, hi: nat): (k: nat)
    requires lo <= hi <= |s|
    ensures lo <= k <= hi
    ensures forall j :: k <= j < hi ==> IsSpace(s[j])
    ensures k > lo ==> !IsSpace(s[k - 1])
    decreases hi
  {
    if hi > lo && IsSpace(s[hi - 1]) then SkipSpacesBack(s, lo, hi - 1) else hi
  }

  /** Python's `str.strip()` with no argument. */
  function Strip(s: string): (r: string)
    ensures |r| <= |s|
    ensures |r| == 0 <==> AllSpace(s)
    ensures |r| > 0 ==> !IsSpace(r[0]) && !IsSpace(r[|r| - 1])
  {
    var lo := SkipSpaces(s, 0);
    var hi := SkipSpacesBack(s, lo, |s|);
    s[lo..hi]
  }

  /** What `Strip` cuts off is spaces, on both sides. */
  lemma StripCutsSpaces(s: string)
    ensures exists lo, hi ::
              && 0 <= lo <= hi <= |s| && Strip(s) == s[lo..hi]
              && (forall j :: 0 <= j < lo ==> IsSpace(s[j]))
              && (forall j :: hi <= j < |s| ==> IsSpace(s[j]))
  {
    var lo := SkipSpaces(s, 0);
    var hi := SkipSpacesBack(s, lo, |s|);
    assert Strip(s) == s[lo..hi];
  }

  /** A string with no space at either end is its own strip. */
  lemma StripOfTrimmed(s: string)
    requires |s| > 0 && !IsSpace(s[0]) && !IsSpace(s[|s| - 1])
    ensures Strip(s) == s
  {
  }

  /** Stripping twice is stripping once. */
  lemma StripIdempotent(s: string)
    ensures Strip(Strip(s)) == Strip(s)
  {
    var t := Strip(s);
    if |t| > 0 {
      assert SkipSpaces(t, 0) == 0;
      assert SkipSpacesBack(t, 0, |t|) == |t|;
    }
  }

  // ---------------------------------------------------------------------------
  // Substrings
  // ---------------------------------------------------------------------------

  ghost predicate OccursAt(s: string, p: string, i: int) {
    0 <= i && i + |p| <= |s| && s[i..i + |p|] == p
  }

  /** `p` is a substring of `s`, Python's `p in s`. */
  ghost predicate Contains(s: string, p: string) {
    exists i :: OccursAt(s, p, i)
  }

  lemma ContainsTail(s: string, p: string)
    requires |s| > 0 && !OccursAt(s, p, 0)
    ensures Contains(s, p) <==> Contains(s[1..], p)
  {
    if Contains(s, p) {
      var i :| OccursAt(s, p, i);
      assert s[1..][i - 1..i - 1 + |p|] == s[i..i + |p|];
      assert OccursAt(s[1..], p, i - 1);
    }
    if Contains(s[1..], p) {
      var i :| OccursAt(s[1..], p, i);
      assert s[1..][i..i + |p|] == s[i + 1..i + 1 + |p|];
      assert OccursAt(s, p, i + 1);
    }
  }

  /** The left-to-right search behind Python's `in` on strings. */
  function IsSubstring(p: string, s: string): (r: bool)
    ensures r <==> Contains(s, p)
    decreases |s|
  {
    if |p| > |s| then
      assert forall i :: !OccursAt(s, p, i);
      false
    else if s[..|p|] == p then
      assert OccursAt(s, p, 0);
      true
    else
      ContainsTail(s, p);
      IsSubstring(p, s[1..])
  }

  /** A pattern occurs only in a string that holds each of its characters. */
  lemma ContainsCharOf(s: string, p: string, k: nat)
    requires k < |p|
    ensures Contains(s, p) ==> p[k] in s
  {
    if Contains(s, p) {
      var i :| OccursAt(s, p, i);
      assert s[i + k] == s[i..i + |p|][k];
    }
  }

  // ---------------------------------------------------------------------------
  // Splitting and joining
  // ---------------------------------------------------------------------------

  /** Index of the first occurrence of `c` in `s`. */
  function IndexOf(s: string, c: char): (r: Option<nat>)
    ensures r.None? ==> c !in s
    ensures r.Some? ==> r.value < |s| && s[r.value] == c
    ensures r.Some? ==> forall k :: 0 <= k < r.value ==> s[k] != c
  {
    if |s| == 0 then None
    else if s[0] == c then Some(0)
    else match IndexOf(s[1..], c)
      case None => None
      case Some(i) => Some(i + 1)
  }

  /** Index of the last occurrence of `c` in `s`. */
  function LastIndexOf(s: string, c: char): (r: Option<nat>)
    ensures r.None? ==> c !in s
    ensures r.Some? ==> r.value < |s| && s[r.value] == c
    ensures r.Some? ==> forall k :: r.value < k < |s| ==> s[k] != c
  {
    if |s| == 0 then None
    else if s[|s| - 1] == c then Some(|s| - 1)
    else
      var init := s[..|s| - 1];
      assert s == init + [s[|s| - 1]];
      match LastIndexOf(init, c)
      case None => None
      case Some(i) => Some(i)
  }

  lemma {:induction false} IndexOfAt(s: string, c: char, i: nat)
    requires i < |s| && s[i] == c && c !in s[..i]
    ensures IndexOf(s, c) == Some(i)
  {
    if i > 0 {
      assert s[0] == s[..i][0];
      assert s[1..][..i - 1] == s[1..i];
      assert forall x :: x in s[1..i] ==> x in s[..i];
      IndexOfAt(s[1..], c, i - 1);
    }
  }

  /** Python's `sep.join(ws)` for a one-character separator. */
  function Join(ws: seq<string>, sep: char): string
  {
    if |ws| == 0 then ""
    else if |ws| == 1 then ws[0]
    else ws[0] + [sep] + Join(ws[1..], sep)
  }

  /** Python's `s.split(sep)` for a one-character separator: every separator cuts, so
      neighbouring separators leave empty pieces. */
  function SplitOn(s: string, sep: char): (r: seq<string>)
    ensures |r| >= 1
    ensures forall i :: 0 <= i < |r| ==> sep !in r[i]
    ensures Join(r, sep) == s
    decreases |s|
  {
    match IndexOf(s, sep)
    case None => [s]
    case Some(i) =>
      var rest := SplitOn(s[i + 1..], sep);
      assert ([s[..i]] + rest)[1..] == rest;
      assert s == s[..i] + [sep] + s[i + 1..];
      [s[..i]] + rest
  }

  /** A separator-free piece followed by the separator splits off as the first piece. */
  lemma SplitOffFirst(w: string, sep: char, t: string)
    requires sep !in w
    ensures SplitOn(w + [sep] + t, sep) == [w] + SplitOn(t, sep)
  {
    var s := w + [sep] + t;
    assert s[..|w|] == w;
    IndexOfAt(s, sep, |w|);
    assert s[|w| + 1..] == t;
  }

  /** Splitting a joined list of separator-free pieces gives the pieces back. */
  lemma {:induction false} SplitJoin(ws: seq<string>, sep: char)
    requires |ws| >= 1
    requires forall i :: 0 <= i < |ws| ==> sep !in ws[i]
    ensures SplitOn(Join(ws, sep), sep) == ws
    decreases |ws|
  {
    if |ws| > 1 {
      SplitOffFirst(ws[0], sep, Join(ws[1..], sep));
      SplitJoin(ws[1..], sep);
      assert ws == [ws[0]] + ws[1..];
    } else {
      assert Join(ws, sep) == ws[0];
    }
  }

  /** The pieces of a list that are not empty, in order. */
  function NonEmpty(ws: seq<string>): (r: seq<string>)
    ensures |r| <= |ws|
    ensures forall i :: 0 <= i < |r| ==> |r[i]| > 0
    ensures forall w :: w in r <==> w in ws && |w| > 0
  {
    if |ws| == 0 then []
    else if |ws[0]| > 0 then [ws[0]] + NonEmpty(ws[1..])
    else NonEmpty(ws[1..])
  }

  /** Filtering a one-element list keeps the element exactly when it is not empty. */
  lemma NonEmptyOfOne(w: string)
    ensures NonEmpty([w]) == if |w| > 0 then [w] else []
  {
    assert [w][1..] == [];
  }

  /** The filter distributes over concatenation; with `NonEmptyOfOne` this fixes it: the
      non-empty pieces, every one of them, in their order. */
  lemma {:induction false} NonEmptyAppend(a: seq<string>, b: seq<string>)
    ensures NonEmpty(a + b) == NonEmpty(a) + NonEmpty(b)
  {
    if |a| > 0 {
      assert (a + b)[1..] == a[1..] + b;
      NonEmptyAppend(a[1..], b);
    } else {
      assert a + b == b;
    }
  }

  /** A sequence is the part before position `i`, the element there, and the part after. */
  lemma CutAt<T>(a: seq<T>, i: nat)
    requires i < |a|
    ensures a == a[..i] + [a[i]] + a[i + 1..]
  {
  }

  lemma Regroup<T>(h: seq<T>, x: T, t: seq<T>, b: seq<T>)
    ensures (h + [x] + t) + [x] + b == h + [x] + (t + [x] + b)
  {
  }

  lemma ConsAppend<T>(h: T, x: seq<T>, y: seq<T>)
    ensures [h] + (x + y) == ([h] + x) + y
  {
  }

  /** Splitting at a separator placed between two strings splits each of them. */
  lemma {:induction false} SplitOnAround(a: string, sep: char, b: string)
    ensures SplitOn(a + [sep] + b, sep) == SplitOn(a, sep) + SplitOn(b, sep)
    decreases |a|
  {
    match IndexOf(a, sep)
    case None =>
      SplitOffFirst(a, sep, b);
    case Some(i) =>
      var head, tail := a[..i], a[i + 1..];
      CutAt(a, i);
      Regroup(head, sep, tail, b);
      SplitOffFirst(head, sep, tail + [sep] + b);
      SplitOnAround(tail, sep, b);
      SplitOffFirst(head, sep, tail);
      ConsAppend(head, SplitOn(tail, sep), SplitOn(b, sep));
  }

  /** `[p for p in s.split(' ') if len(p) > 0]`. */
  function Words(s: string): (r: seq<string>)
    ensures forall i :: 0 <= i < |r| ==> |r[i]| > 0 && ' ' !in r[i]
  {
    NonEmpty(SplitOn(s, ' '))
  }

  /** The words of a string with no space: the string itself, unless it is empty. */
  lemma WordsOfWord(w: string)
    requires ' ' !in w
    ensures Words(w) == if |w| > 0 then [w] else []
  {
    assert SplitOn(w, ' ') == [w];
    NonEmptyOfOne(w);
  }

  /** A space separates words: the words of `a + " " + b` are those of `a`, then those
      of `b`. With `WordsOfWord` this makes the words the maximal runs of non-space
      characters, in order. */
  lemma WordsAround(a: string, b: string)
    ensures Words(a + " " + b) == Words(a) + Words(b)
  {
    SplitOnAround(a, ' ', b);
    NonEmptyAppend(SplitOn(a, ' '), SplitOn(b, ' '));
  }

  /** Words joined by single spaces split back into the same words. */
  lemma WordsOfJoin(ws: seq<string>)
    requires forall i :: 0 <= i < |ws| ==> |ws[i]| > 0 && ' ' !in ws[i]
    ensures Words(Join(ws, ' ')) == ws
  {
    if |ws| == 0 {
      assert IndexOf("", ' ') == None;
      assert SplitOn("", ' ') == [""];
    } else {
      SplitJoin(ws, ' ');
      NonEmptyOfNonEmpty(ws);
    }
  }

  lemma NonEmptyOfNonEmpty(ws: seq<string>)
    requires forall i :: 0 <= i < |ws| ==> |ws[i]| > 0
    ensures NonEmpty(ws) == ws
  {
    if |ws| > 0 {
      NonEmptyOfNonEmpty(ws[1..]);
      assert ws == [ws[0]] + ws[1..];
    }
  }

  // ---------------------------------------------------------------------------
  // Decimal numerals
  // ---------------------------------------------------------------------------

  function DigitChar(d: nat): (c: char)
    requires d < 10
    ensures IsAsciiDigit(c)
  {
    ('0' as int + d) as char
  }

  /** Python's `str(n)` for a natural number. */
  function NatToString(n: nat): (r: string)
    ensures |r| >= 1
    ensures forall i :: 0 <= i < |r| ==> IsAsciiDigit(r[i])
    // The canonical decimal: no leading zero, except for zero itself.
    ensures n == 0 ==> r == "0"
    ensures n > 0 ==> r[0] != '0'
  {
    if n < 10 then [DigitChar(n)] else NatToString(n / 10) + [DigitChar(n % 10)]
  }

  /** The value of a string of decimal digits. */
  function DigitsValue(s: string): nat
    requires forall i :: 0 <= i < |s| ==> IsAsciiDigit(s[i])
  {
    if |s| == 0 then 0
    else
      var last := s[|s| - 1];
      assert IsAsciiDigit(last);
      10 * DigitsValue(s[..|s| - 1]) + (last as int - '0' as int)
  }

  /** Reading back a numeral gives the number: `int(str(n)) == n`. */
  lemma {:induction false} NatToStringValue(n: nat)
    ensures DigitsValue(NatToString(n)) == n
  {
    if n >= 10 {
      var s := NatToString(n);
      NatToStringValue(n / 10);
      assert s[..|s| - 1] == NatToString(n / 10);
    }
  }

  /** A numeral with a non-zero first digit has a positive value. */
  lemma {:induction false} LeadingDigitPositive(s: string)
    requires |s| >= 1 && forall i :: 0 <= i < |s| ==> IsAsciiDigit(s[i])
    requires s[0] != '0'
    ensures DigitsValue(s) > 0
    decreases |s|
  {
    if |s| > 1 {
      LeadingDigitPositive(s[..|s| - 1]);
    }
  }

  /** `str(n)` is the only numeral for `n` without a leading zero: any such string of
      digits whose value is `n` is `NatToString(n)`. */
  lemma {:induction false} CanonicalNumeral(s: string, n: nat)
    requires |s| >= 1 && forall i :: 0 <= i < |s| ==> IsAsciiDigit(s[i])
    requires s[0] != '0' || s == "0"
    requires DigitsValue(s) == n
    ensures s == NatToString(n)
    decreases |s|
  {
    if |s| > 1 {
      var init := s[..|s| - 1];
      LeadingDigitPositive(init);
      CanonicalNumeral(init, DigitsValue(init));
      assert s == init + [s[|s| - 1]];
    }
  }
}

=== FILE: wrappers.dfy ===
/** Failure-carrying wrappers shared by every module of the model. */
module Wrappers {

  /** A value that may be absent: Python's `None` or a missing JSON field. */
  datatype Option<+T> = None | Some(value: T)

  /** The outcome of an operation that either produces a value or fails with an error. */
  datatype Result<+R, +E> = Ok(value: R) | Err(error: E)
}
